=== FILE: README.md ===
# Worker CRDT core

This is a model of the core of a collaborative-editor worker (`worker/worker.go`). A worker holds one
document per editing session. A document is a linked list of elements, kept in a map from operation
identifier to element, together with the id of the first element and a counter. The counter is used
to mint new operation identifiers.

Each worker does three things with its documents:

- It runs local inserts (`addRight`). These mint an id from the document's counter and the worker's
  own id.
- It puts every insert through one resolver (`addToCRDT`), which has three cases:
  - the first entry of an empty document;
  - an insert at the reserved sentinel id `12345`, which becomes the new first element;
  - a normal insert. The concurrent-insert walk moves the new element past successors that have a
    numerically larger or equal id and come from another client.
- It merges batches of operations sent by peers (`ApplyIncomingOps`). An operation is skipped when
  its session is unknown or its id is already stored.

Every insert that the resolver stores is appended to the worker's outgoing buffer (`localOps`).

The model is split into modules:

- **`Ids`** (`ids.dfy`) covers the decimal identifiers:
  - the `strconv.Atoi`/`strconv.Itoa` pair on them;
  - how an id is minted by concatenating the counter and the worker id.
- **`Document`** (`document.dfy`) holds the values:
  - the `Element` and `Doc` datatypes;
  - the invariant `WellFormed`;
  - the rendered `Message`;
  - the walk (`AnchorIndex`/`Anchor`);
  - the insert resolver as a function, `Insert`.

  A `Doc` also carries a field `order`, which lists the ids in chain order. The source keeps no
  such field. The value-level definitions do read it: `Message` renders along it, and `Anchor`
  (used by `Insert` and `Placed`) walks it. The methods of `Crdt` and `Worker` do not. In a `Crdt`,
  `order` is a ghost field, and the methods follow the real `nextId` links. `GetMessage`,
  `SamePlaceInsertCheck` and `AddToCrdt` are proved to agree with the walk along `order`.
  `OrderDetermined` proves that the elements and the first id of a well-formed document fix its
  `order`, so the field adds no information.
- **`InsertProperties`** (`insert_properties.dfy`) holds what is proved about `Insert`:
  - well-formedness and bookkeeping;
  - relinking and the rendered message;
  - convergence of two concurrent inserts;
  - the three-insert scenario;
  - the identifier-collision counterexample.
- **`Crdts`** (`crdt.dfy`) has the class `Crdt`, one document as a mutable object. Its methods are
  the Go functions that act only on one document. Each is proved against `Document`.
- **`Merge`** (`merge.dfy`) is the remote merge as a function on values (`ApplyBatch`), with its
  lemmas.
- **`Workers`** (`worker.dfy`) has the class `Worker`:
  - the session map and the outgoing buffer;
  - local inserts, the resolver run on a held document, the merge loop (proved against
    `ApplyBatch`), the peer lookup and the buffer drain.

Some behaviours of the code that the model keeps as they are:

- An incoming operation for a session the worker does not hold is dropped
  (`worker/worker.go:464-465`). It does not create the document.
- An incoming operation that is applied goes through the same resolver as a local one. So it is
  appended to `localOps` as well (`worker/worker.go:413`) and advances the document's counter.
- An incoming operation into a non-empty document whose reference is neither stored nor the
  sentinel dereferences a missing element (`worker/worker.go:393-394`). In an empty document the
  first-entry case takes any operation and dereferences nothing (`worker/worker.go:329-331`).
  The model requires that the dereference does not happen (see Left out).
- Minted ids are not unique per (counter, worker) pair (see Findings).

## Model

| member | source | states |
|---|---|---|
| Ids.Atoi | worker/worker.go:395-396 | Definition (no contract): `strconv.Atoi` on unsigned decimal text. Text that is empty or holds a non-digit reads as 0, which is the value Atoi returns with the error the code ignores. Its round trips with `Itoa` are `AtoiItoa` and `ItoaAtoi`. |
| Ids.Itoa | worker/worker.go:322 | The decimal text of a number is non-empty, all digits, canonical for positive numbers, and one digit long exactly when the number is below 10. |
| Ids.AtoiItoa | worker/worker.go:398 | Reading back the text Itoa wrote gives the same number. |
| Ids.ItoaAtoi | worker/worker.go:397-398 | For a canonical id, writing back the number Atoi read gives the same text. So the walk's lookup of `Itoa(nextOpID)` reaches the successor named by `NextID`. |
| Ids.CanonicalPositive | worker/worker.go:396 | Every canonical id reads as a number of at least 1. |
| Ids.MintId | worker/worker.go:322 | An id minted from a positive counter is canonical decimal text. |
| Ids.MintIdValue | worker/worker.go:322 | Numerically, a minted id is the counter shifted left by the number of digits of the worker id, plus the worker id. |
| Ids.MintIdIncreases | worker/worker.go:322 | A worker's next counter value mints a numerically larger id. |
| Ids.MintIdDistinctWorkers | worker/worker.go:322 | Two different workers at the same counter value mint different ids. |
| Ids.MintIdCollision | worker/worker.go:322 | Counter 11 at worker 1 and counter 1 at worker 11 both mint "111". |
| Document.Message | worker/worker.go:252-261 | Definition (no contract): the texts of the elements in chain order, concatenated. `Crdts.Crdt.GetMessage` is proved to return it. |
| Document.Passes | worker/worker.go:397 | Definition (no contract): the walk's test for moving past a successor. Its id read as a number is at least the new id, and its client differs from the new element's. |
| Document.Placed | worker/worker.go:411 | Definition (no contract): the copy an insert stores. It is the element with the successor its case gives: unchanged for a first entry, the old first id at the sentinel, the anchor's old successor otherwise. |
| Document.Insert | worker/worker.go:328-340 | Definition (no contract): the resolver on values. It has three cases (first entry, sentinel, walk then splice), and each ends by storing `Placed` and advancing the counter. What it does is proved in `InsertBookkeeping`, `InsertWellFormed`, `InsertLinks`, `InsertRender` and `TwoInsertsConverge`. `Workers.Worker.AddToCrdt` is proved to compute it. |
| Document.IndexOf | worker/worker.go:393 | The position of a stored id in the chain, at its first occurrence. |
| Document.AnchorIndex | worker/worker.go:391-406 | The walk stops at or after its start. It passes only successors whose id is numerically at least the new id and that come from another client. It stops at the first successor that fails this test, or at the end of the chain. |
| Document.Anchor | worker/worker.go:382 | The anchor a normal insert links after is a position on the chain. |
| Crdts.EmptyMessage | worker/worker.go:280 | A new session's document is well formed and shows the empty message. |
| InsertProperties.InsertBookkeeping | worker/worker.go:410-416 | Every insert stores exactly one new key, the new id, holding the placed element, and advances the counter by one. |
| InsertProperties.InsertWellFormed | worker/worker.go:328-340 | An insert with a fresh canonical id and a reference that can be resolved keeps the chain well formed. Following `NextID` from the first id then visits every element once and ends at an empty `NextID`. |
| InsertProperties.InsertLinks | worker/worker.go:357-386 | How each case relinks the chain: first entry; sentinel (new first element, old first points back); normal (after the anchor, taking over its successor). No other element changes. |
| InsertProperties.InsertRender | worker/worker.go:252-261 | The message after an insert is one of three. In an empty document it is the new text. At the sentinel it is the new text in front of the old message. Otherwise the new text goes right after the anchor's text. |
| InsertProperties.TwoInsertsConverge | worker/worker.go:388-406 | Two concurrent inserts after an element with no successor, from different clients with different numeric ids, give the same document in either order. The larger id ends up next to the referenced element. |
| InsertProperties.LastAnchor | worker/worker.go:402-404 | A reference without a successor is the last element, and the walk stops there. |
| InsertProperties.AnchorAtReference | worker/worker.go:394-404 | The walk stops at the reference when it has no successor, or when its successor comes from the new element's own client. |
| InsertProperties.OpOkAfterInsert | worker/worker.go:412 | In a non-empty document, an insert that was acceptable stays acceptable after another insert with a different id, because keys only grow. |
| InsertProperties.ScenarioAcb | worker/worker.go:391-406 | Three inserts: "a" at the sentinel (id 11), "b" after it (id 12, same client), "c" after "a" (id 21, other client). The message reads "a", then "ab", then "acb". |
| InsertProperties.CollidingInsertLoops | worker/worker.go:368-378 | As written: a document holding the element minted by worker 11 at counter 1 gets a sentinel insert minted by worker 1 at counter 11. The first element becomes its own successor, so the chain is no longer well formed and the message walk never ends. |
| InsertProperties.CollidingSentinelCycles | worker/worker.go:368-378 | As written, in any well-formed document of any size and counter: a sentinel insert whose id is already stored at chain position p makes that id the first element, linked to the old first one. The links from there up to position p are kept, so following `NextID` from the first element returns to it after p + 1 steps. |
| InsertProperties.OrderDetermined | worker/worker.go:252-261 | Two well-formed documents with the same elements and the same first id have the same chain order. The walk along the `NextID` links from the first id fixes the order, so the extra `order` field adds nothing. |
| InsertProperties.NoSelfLink | worker/worker.go:255-259 | In a well-formed document the first element is not its own successor. |
| Crdts.Crdt.constructor | worker/worker.go:280 | A new document: no elements, empty first id, counter 1, well formed. |
| Crdts.Crdt.GetMessage | worker/worker.go:252-261 | Walks from the first id, appending each text, until the id is not stored. The result is the document's message. |
| Crdts.Crdt.FirstCrdtEntry | worker/worker.go:357-364 | Reports true exactly when the document has no elements, and then sets the first id to the new id. Otherwise nothing changes. |
| Crdts.Crdt.ReplacingFirstOp | worker/worker.go:368-378 | Reports true exactly when the reference is the sentinel. It then links the new element in front of the old first element, which points back to it, and makes it the first. Otherwise nothing changes. |
| Crdts.Crdt.SamePlaceInsertCheck | worker/worker.go:391-406 | Returns the stored id at the anchor position `Anchor` defines. |
| Crdts.Crdt.NormalInsert | worker/worker.go:381-386 | The new element takes the anchor's old successor and the anchor now points to the new element. Nothing else changes. |
| Crdts.WalkStep | worker/worker.go:397-399 | While the walk's test passes, it is not at the end. The successor is the element looked up by `Itoa(nextOpID)`, and stepping to it does not change where the walk ends. |
| Crdts.WalkStop | worker/worker.go:397-401 | Where the walk's test fails, the walk ends, and the element there carries its own key as id. |
| Merge.Fresh | worker/worker.go:464-466 | Definition (no contract): the merge's test. The operation's session is held and its id is not stored yet. |
| Merge.Apply | worker/worker.go:463-469 | One incoming operation keeps every document well formed and the set of sessions unchanged. |
| Merge.ApplyKeys | worker/worker.go:463-469 | One incoming operation adds its id to its session's document when the session is known and the id new, and nothing else. Afterwards its id is stored whenever its session is known. |
| Merge.ApplyBatch | worker/worker.go:461-472 | A batch applied in order keeps every document well formed and the set of sessions unchanged. |
| Merge.BatchKeeps | worker/worker.go:461-472 | A batch loses no stored id. Afterwards every operation of a known session is stored. |
| Merge.StoredBatchIsNoop | worker/worker.go:466 | A batch whose operations are all already stored, or belong to unknown sessions, changes nothing and records nothing. |
| Merge.ReapplyIsNoop | worker/worker.go:461-472 | Applying the same batch again right after the first time changes nothing and records nothing: duplicate deliveries are harmless. |
| Merge.SessionsIndependent | worker/worker.go:464 | What a batch does to one session depends only on that session's document. |
| Merge.BatchKeepsCount | worker/worker.go:410-416 | If every counter is one more than the element count before a batch, this still holds after it. |
| Workers.AcceptedIsResolvable | worker/worker.go:343-354 | An insert whose reference passed the existence check, with a minted id, can be resolved without dereferencing a missing element. |
| Workers.Worker.constructor | worker/worker.go:41-54 | A worker with its id, no sessions and an empty outgoing buffer. |
| Workers.Worker.NewSession | worker/worker.go:278-282 | The new session maps to a fresh empty document. The other sessions are unchanged and all documents stay well formed. |
| Workers.Worker.AddSession | worker/worker.go:280 | Files an unshared empty document under the session name. The other sessions are unchanged. |
| Workers.Worker.PrevIdExists | worker/worker.go:343-354 | True exactly when the session is held and the reference is the sentinel or an element on its chain. |
| Workers.Worker.SendCrdt | worker/worker.go:228-235 | The error names the session exactly when the session is not held. Otherwise the held document is returned. |
| Workers.Worker.AddOpAndIncrementCounter | worker/worker.go:410-416 | Stores the element under its id, appends the same copy to the buffer and advances the counter by one. |
| Workers.Worker.AddToCrdt | worker/worker.go:328-340 | The document becomes `Insert` of the old one, and the stored copy of the element is appended to the buffer. |
| Workers.Worker.AddToSession | worker/worker.go:328-340 | Running the resolver on a held session changes only that session's document. |
| Workers.Worker.LocalElement | worker/worker.go:321-323 | The element a local insert creates has: the worker's client id; the id minted from the counter and the worker id; the given reference; no successor; not deleted. |
| Workers.Worker.AddRight | worker/worker.go:317-326 | An unknown session or reference changes nothing. Otherwise the minted element is inserted and its stored copy buffered. The documents stay well formed if the minted id was not already stored (`CollidingSentinelCycles` shows the other case can break them). |
| Workers.Worker.AddRightUnique | worker/worker.go:317-326 | AddRight with an added check: a minted id that is already stored is refused, so every document always stays well formed. |
| Workers.Worker.ApplyIncomingOps | worker/worker.go:461-472 | The loop over a batch leaves the documents as `ApplyBatch` defines. The buffer grows by exactly what the batch records, and every document stays well formed. |
| Workers.Worker.ApplyIncomingOp | worker/worker.go:464-468 | One operation: skipped when its session is unknown or its id stored, otherwise put through the resolver. The result is `Apply`, and the buffer grows by `Recorded`. |
| Workers.Worker.DrainLocalOps | worker/worker.go:456 | The buffer is handed over and emptied. |

## Left out

- Process start-up, configuration and registration with the load balancer are not modelled. Neither
  are heartbeats, RPC and HTTP listeners, websocket clients, peer connection management
  (`connectToWorkers`, `BidirectionalSetup`, liveness pings) or the console prompts. All of these
  are I/O.
- `getSession` fetches a snapshot from peers over RPC. The model leaves the network out.
- `newSession`: the random session name becomes a parameter of `NewSession`, and the console loop
  that follows is not modelled.
- `sendLocalOps`: only its effect on worker state is modelled (`DrainLocalOps`). The ten-second
  sleep and the RPC fan-out to peers are I/O.
- Printing (`fmt.Println` of ids and counters in `getMessage` and `addOpAndIncrementCounter`) is not
  modelled.
- Deletion: the `Deleted` flag is carried but never read, as in the source.
- Concurrency: the source's goroutines touch `crdt` and `localOps` without locks. The model runs
  one operation at a time.
- The text of the `NoCRDTError` message is not modelled; the error carries the session name.
- Go pointer aliasing: elements reached through pointers are modelled as map entries replaced by
  updated values. Documents are objects, and `Worker.Valid` requires that no two sessions share
  one.
- Ids.Atoi: a leading `+` or `-` sign and 64-bit overflow of `strconv.Atoi` are not modelled.
  Every id the model meets is unsigned decimal text.
- Workers.Worker.constructor: the worker id is a `nat`. A negative id from the load balancer,
  which would put a `-` into every minted id, is not modelled.
- Workers.Worker.AddOpAndIncrementCounter: the 64-bit wrap-around of `NextOpNumber` is not
  modelled, because counters are unbounded integers.
- Workers.Worker.AddToCrdt: the redundant `prevID`/`opID` parameters of `replacingFirstOp` and
  `normalInsert` are dropped, since `addToCRDT` always passes the element's own `PrevID` and `ID`
  (`worker/worker.go:333`, `worker/worker.go:337`).
- InsertProperties.InsertWellFormed: requires that an element entering an empty document has an
  empty `NextID`. The first-entry case keeps whatever `NextID` the element carries, and a remote
  first entry with a non-empty `NextID` would leave the chain open at its end.
- Workers.Worker.ApplyIncomingOps: requires (through `Merge.BatchOk` and `OpOk`) that each
  fresh remote operation has a canonical id. It has two further requirements. First, when the
  document is non-empty, the operation's reference must be stored or be the sentinel; the source
  would dereference a missing reference (a nil pointer), which is not modelled. Second, when the
  document is empty, the operation must have an empty `NextID`; the first-entry case keeps the
  `NextID` it carries, and a non-empty one would leave the chain open at its end.
- Merge.ApplyBatch: convergence of arbitrary sets of operations in any delivery order is not
  proved. Only the two-insert case at a reference without a successor (`TwoInsertsConverge`) and
  the harmlessness of duplicate delivery (`ReapplyIsNoop`) are.

## Findings

| source | as written | input that shows it | evidently intended | confidence | as-written member | corrected member |
|---|---|---|---|---|---|---|
| worker/worker.go:322 | The new id is the decimal counter followed by the decimal worker id, and `addRight` stores it without checking that it is new. Different (counter, worker) pairs can mint the same id. | Worker 11 inserts "x" into an empty session at its counter 1, minting "111". Worker 1 receives it, and nine more inserts later its copy holds ten elements at counter 11. Worker 1 then inserts "y" at the sentinel and also mints "111". The stored "111" is overwritten by an element linked to the old first one, and the element before the old "111" still points to "111". So `getMessage` walks in a cycle and never ends. `CollidingSentinelCycles` proves this for every document. `CollidingInsertLoops` is the smallest instance: one element, which becomes its own successor. | A minted id is never one already stored in the document, so the chain stays well formed. | not executed | InsertProperties.CollidingSentinelCycles | Workers.Worker.AddRightUnique |

=== FILE: crdt.dfy ===
/** One session's document as the mutable object a worker holds: its three fields, updated in
    place by the steps of an insert, and the walks that read it. */
module Crdts {
  import opened Ids
  import opened Document
  import opened InsertProperties

  class Crdt {
    var elements: map<string, Element>
    var firstId: string
    var nextOpNumber: int
    /** The ids in chain order. The steps below change the real fields only and leave it behind;
        `Workers.Worker.AddToCrdt`, which runs them, brings it back in line with the links. */
    ghost var order: seq<string>

    ghost function Value(): Doc
      reads this
    {
      Doc(elements, firstId, nextOpNumber, order)
    }

    ghost predicate Valid()
      reads this
    {
      WellFormed(Value())
    }

    /** A fresh document: no elements, no first id, counter 1 (worker/worker.go:280); its
        message is empty (`EmptyMessage`). */
    constructor ()
      ensures Valid() && Value() == EmptyDoc
    {
      elements := map[];
      firstId := "";
      nextOpNumber := 1;
      order := [];
    }

    /** Follows `nextId` from the first element, appending each text, until the id it reaches is
        not stored. The result is the message of the document. */
    method GetMessage() returns (msg: string)
      requires Valid()
      ensures msg == Message(Value())
    {
      EmptyIffNoOrder(Value());
      msg := "";
      var cur := firstId;
      ghost var i := 0;
      while cur in elements
        invariant 0 <= i <= |order|
        invariant i < |order| ==> cur == order[i]
        invariant i == |order| ==> cur !in elements
        invariant msg == Render(elements, order[..i])
        decreases |order| - i
      {
        var op := elements[cur];
        assert order[..i + 1][..i] == order[..i];
        msg := msg + op.text;
        cur := op.nextId;
        i := i + 1;
      }
      assert order[..i] == order;
    }

    /** The first-entry step: in an empty document the new id becomes the first id. */
    method FirstCrdtEntry(opId: string) returns (isFirst: bool)
      modifies this`firstId
      ensures isFirst <==> |elements| == 0
      ensures firstId == if isFirst then opId else old(firstId)
    {
      if |elements| <= 0 {
        firstId := opId;
        isFirst := true;
      } else {
        isFirst := false;
      }
    }

    /** The sentinel step: an element that references the sentinel is linked in front of the old
        first element, which points back to it, and becomes the first element. Returns the element
        with its new successor. The old first element must exist, as the source dereferences it. */
    method ReplacingFirstOp(e: Element) returns (replaced: bool, placed: Element)
      requires e.prevId == InitialId ==> firstId in elements
      modifies this`elements, this`firstId
      ensures replaced <==> e.prevId == InitialId
      ensures replaced ==>
        && placed == e.(nextId := old(firstId))
        && elements == old(elements)[old(firstId) := old(elements)[old(firstId)].(prevId := e.id)]
        && firstId == e.id
      ensures !replaced ==> placed == e && elements == old(elements) && firstId == old(firstId)
    {
      if e.prevId == InitialId {
        var firstOp := elements[firstId];
        placed := e.(nextId := firstId);
        elements := elements[firstId := firstOp.(prevId := e.id)];
        firstId := e.id;
        replaced := true;
      } else {
        placed := e;
        replaced := false;
      }
    }

    /** The concurrent-insert walk. From the referenced element it moves to the successor while
        that successor's numeric id is at least the new id and it comes from another client, and
        returns the id of the element it stops at: the anchor the new element goes after. */
    method SamePlaceInsertCheck(e: Element) returns (anchor: string)
      requires Valid() && e.prevId in elements && Atoi(e.id) >= 1
      ensures anchor in elements
      ensures anchor == order[Anchor(Value(), e)]
    {
      var d := Value();
      ghost var i0 := IndexOf(order, e.prevId);
      var prevOp := elements[e.prevId];
      if prevOp.nextId != "" {
        var nextOpId := Atoi(prevOp.nextId);
        var newOpId := Atoi(e.id);
        ghost var j := i0;
        SuccessorStored(d, j);
        while nextOpId >= newOpId && e.clientId != elements[prevOp.nextId].clientId
          invariant j < |order| && prevOp == elements[order[j]]
          invariant nextOpId == Atoi(prevOp.nextId)
          invariant prevOp.nextId == "" || prevOp.nextId in elements
          invariant AnchorIndex(d, j, e) == AnchorIndex(d, i0, e)
          decreases |order| - j
        {
          WalkStep(d, j, e);
          prevOp := elements[Itoa(nextOpId)];
          nextOpId := Atoi(prevOp.nextId);
          j := j + 1;
          SuccessorStored(d, j);
        }
        WalkStop(d, j, e);
        anchor := prevOp.id;
      } else {
        LastOrLinked(d, i0);
        anchor := e.prevId;
      }
    }

    /** The normal step: links the new element in after the anchor the walk finds; the new
        element takes over the anchor's successor. Returns the element with that successor. */
    method NormalInsert(e: Element) returns (placed: Element)
      requires Valid() && e.prevId in elements && Atoi(e.id) >= 1
      modifies this`elements
      ensures var a := old(order)[Anchor(old(Value()), e)];
        && a in old(elements)
        && placed == e.(nextId := old(elements)[a].nextId)
        && elements == old(elements)[a := old(elements)[a].(nextId := e.id)]
    {
      var newPrevId := SamePlaceInsertCheck(e);
      var prevOp := elements[newPrevId];
      placed := e.(nextId := prevOp.nextId);
      elements := elements[newPrevId := prevOp.(nextId := e.id)];
    }
  }

  /** A session's starting document is well formed and shows the empty message. */
  lemma EmptyMessage()
    ensures WellFormed(EmptyDoc) && Message(EmptyDoc) == ""
  {
  }

  /** One step of the walk: while the test passes the walk is not at the end of the chain, the
      successor is the element named by the decimal text of its numeric id, and moving there
      does not change where the walk ends. */
  lemma WalkStep(d: Doc, j: nat, e: Element)
    requires WellFormed(d) && j < |d.order| && Atoi(e.id) >= 1
    requires var n := d.elements[d.order[j]].nextId;
      Atoi(n) >= Atoi(e.id) && n in d.elements && e.clientId != d.elements[n].clientId
    ensures j + 1 < |d.order|
    ensures d.elements[d.order[j]].nextId == d.order[j + 1]
    ensures Itoa(Atoi(d.order[j + 1])) == d.order[j + 1]
    ensures AnchorIndex(d, j, e) == AnchorIndex(d, j + 1, e)
  {
    LastOrLinked(d, j);
    ItoaAtoi(d.order[j + 1]);
  }

  /** Every successor is either empty or stored. */
  lemma SuccessorStored(d: Doc, j: nat)
    requires WellFormed(d) && j < |d.order|
    ensures d.elements[d.order[j]].nextId == "" || d.elements[d.order[j]].nextId in d.elements
  {
    if j + 1 < |d.order| {
      assert d.elements[d.order[j]].nextId == d.order[j + 1];
    }
  }

  /** Where the walk's test fails, it ends. */
  lemma WalkStop(d: Doc, j: nat, e: Element)
    requires WellFormed(d) && j < |d.order| && Atoi(e.id) >= 1
    requires var n := d.elements[d.order[j]].nextId;
      !(Atoi(n) >= Atoi(e.id) && n in d.elements && e.clientId != d.elements[n].clientId)
    ensures AnchorIndex(d, j, e) == j
    ensures d.elements[d.order[j]].id == d.order[j]
  {
    if j + 1 < |d.order| {
      assert d.elements[d.order[j]].nextId == d.order[j + 1];
    }
  }
}

=== FILE: document.dfy ===
/** The shared document: a linked list of elements kept in a map from operation id to element,
    and the placement rule that decides where a new element goes. Everything here is a value;
    the object that holds one document and is updated in place is `Crdts.Crdt`. */
module Document {
  import opened Ids

  /** One inserted piece of text. `deleted` is carried but never read: the source declares
      deletion without giving it any behaviour. */
  datatype Element = Element(
    sessionId: string,
    clientId: string,
    deleted: bool,
    id: string,
    prevId: string,
    nextId: string,
    text: string)

  /** The reserved reference that asks for an insert at the very start of the document. */
  const InitialId: string := "12345"

  /** A document's three fields, together with `order`: the ids in the sequence in which the
      chain of `nextId` links visits them. The source keeps no such field. The definitions on
      values read it (`Message` renders along it, `Anchor` walks it), while the methods of
      `Crdts.Crdt` follow the real links and are proved to agree; `OrderDetermined` shows that in
      a well-formed document the elements and the first id fix it. */
  datatype Doc = Doc(
    elements: map<string, Element>,
    firstId: string,
    nextOpNumber: int,
    order: seq<string>)

  /** The document every new session starts from. */
  const EmptyDoc: Doc := Doc(map[], "", 1, [])

  ghost predicate Distinct(s: seq<string>)
  {
    forall i, j :: 0 <= i < j < |s| ==> s[i] != s[j]
  }

  /** The invariant of a document: following `nextId` from `firstId` visits every stored element
      exactly once, in `order`, and stops at an element whose `nextId` is empty; every key is
      the element's own id and is a canonical identifier; the counter is positive. */
  ghost predicate WellFormed(d: Doc)
  {
    && d.nextOpNumber >= 1
    && Distinct(d.order)
    && (forall k :: k in d.elements <==> k in d.order)
    && (forall k :: k in d.elements ==> d.elements[k].id == k && Canonical(k))
    && (|d.order| > 0 ==> d.firstId == d.order[0])
    && (forall i :: 0 <= i < |d.order| - 1 ==> d.elements[d.order[i]].nextId == d.order[i + 1])
    && (|d.order| > 0 ==> d.elements[d.order[|d.order| - 1]].nextId == "")
  }

  lemma EmptyIffNoOrder(d: Doc)
    requires WellFormed(d)
    ensures |d.elements| == 0 <==> |d.order| == 0
    ensures |d.order| > 0 ==> d.firstId in d.elements
  {
    if |d.order| > 0 {
      assert d.order[0] in d.elements;
    }
  }

  /** The text of the elements named by `ids`, concatenated in that order. */
  function Render(elements: map<string, Element>, ids: seq<string>): string
    requires forall k :: k in ids ==> k in elements
  {
    if ids == [] then "" else Render(elements, ids[..|ids| - 1]) + elements[ids[|ids| - 1]].text
  }

  /** The message a document shows. */
  function Message(d: Doc): string
    requires WellFormed(d)
  {
    Render(d.elements, d.order)
  }

  /** The position of `x` in `s`. */
  function IndexOf(s: seq<string>, x: string): (i: nat)
    requires x in s
    ensures i < |s| && s[i] == x && x !in s[..i]
  {
    if s[0] == x then 0
    else
      var j := IndexOf(s[1..], x);
      assert s[..j + 1] == [s[0]] + s[1..][..j];
      j + 1
  }

  /** The concurrent-insert walk's test for moving past the successor `k`: its id is numerically
      at least the new id, and it comes from another client. */
  predicate Passes(d: Doc, k: string, e: Element)
    requires k in d.elements
  {
    Atoi(k) >= Atoi(e.id) && d.elements[k].clientId != e.clientId
  }

  /** Where the walk that starts at position `i` stops: it moves past every successor that
      passes and stops at the first one that does not, or at the end of the chain. */
  function AnchorIndex(d: Doc, i: nat, e: Element): (r: nat)
    requires WellFormed(d) && i < |d.order|
    ensures i <= r < |d.order|
    ensures forall j :: i < j <= r ==> Passes(d, d.order[j], e)
    ensures r == |d.order| - 1 || !Passes(d, d.order[r + 1], e)
    decreases |d.order| - i
  {
    if i + 1 < |d.order| && Passes(d, d.order[i + 1], e) then AnchorIndex(d, i + 1, e) else i
  }

  /** The position of the element a normal insert is linked after. */
  function Anchor(d: Doc, e: Element): (k: nat)
    requires WellFormed(d) && e.prevId in d.elements
    ensures k < |d.order|
  {
    AnchorIndex(d, IndexOf(d.order, e.prevId), e)
  }

  /** The inputs on which inserting `e` does not dereference a missing element: the document is
      empty, or the reference is the sentinel, or the reference is stored (and the new id is
      positive, so that the walk stops at the end of the chain). */
  predicate Resolvable(d: Doc, e: Element)
  {
    |d.elements| == 0 || e.prevId == InitialId || (e.prevId in d.elements && Atoi(e.id) >= 1)
  }

  /** The inserts that keep a document well formed: resolvable, with a fresh canonical id, and
      with an empty `nextId` when the element becomes the first entry (that case keeps it). */
  ghost predicate OpOk(d: Doc, e: Element)
  {
    && Resolvable(d, e)
    && Canonical(e.id)
    && e.id !in d.elements
    && (|d.elements| == 0 ==> e.nextId == "")
  }

  function Splice(s: seq<string>, k: nat, x: string): seq<string>
    requires k < |s|
  {
    s[..k + 1] + [x] + s[k + 1..]
  }

  /** The element as it is stored by an insert: `e` with its `nextId` set by the case that applies. */
  function Placed(d: Doc, e: Element): Element
    requires WellFormed(d) && Resolvable(d, e)
  {
    if |d.elements| == 0 then e
    else if e.prevId == InitialId then e.(nextId := d.firstId)
    else e.(nextId := d.elements[d.order[Anchor(d, e)]].nextId)
  }

  /** The document after inserting `e`, by the three cases of the insert resolver: the first
      entry of an empty document, an insert at the sentinel that becomes the new first element,
      and a normal insert linked after the anchor the walk finds. */
  function Insert(d: Doc, e: Element): Doc
    requires WellFormed(d) && Resolvable(d, e)
  {
    EmptyIffNoOrder(d);
    var stored := Placed(d, e);
    if |d.elements| == 0 then
      Doc(d.elements[e.id := stored], e.id, d.nextOpNumber + 1, [e.id])
    else if e.prevId == InitialId then
      var first := d.elements[d.firstId];
      Doc(d.elements[d.firstId := first.(prevId := e.id)][e.id := stored],
          e.id, d.nextOpNumber + 1, [e.id] + d.order)
    else
      var k := Anchor(d, e);
      var a := d.order[k];
      Doc(d.elements[a := d.elements[a].(nextId := e.id)][e.id := stored],
          d.firstId, d.nextOpNumber + 1, Splice(d.order, k, e.id))
  }
}

=== FILE: ids.dfy ===
/** Operation identifiers: decimal text, the `strconv.Atoi` / `strconv.Itoa` pair the
    worker uses on them, and how a worker mints a new identifier from its counter. */
module Ids {

  predicate IsDigit(c: char) { '0' <= c <= '9' }

  predicate AllDigits(s: string) { forall i :: 0 <= i < |s| ==> IsDigit(s[i]) }

  /** The shape of every identifier a worker mints: non-empty decimal text without a leading zero. */
  predicate Canonical(s: string) { |s| > 0 && AllDigits(s) && s[0] != '0' }

  function DigitValue(c: char): nat
    requires IsDigit(c)
  {
    c as int - '0' as int
  }

  function DigitChar(d: nat): (c: char)
    requires d < 10
    ensures IsDigit(c) && DigitValue(c) == d
  {
    ('0' as int + d) as char
  }

  function Pow10(n: nat): nat
  {
    if n == 0 then 1 else 10 * Pow10(n - 1)
  }

  /** The number written by a string of decimal digits, read left to right. */
  function DigitsValue(s: string): nat
    requires AllDigits(s)
  {
    if s == [] then 0 else DigitsValue(s[..|s| - 1]) * 10 + DigitValue(s[|s| - 1])
  }

  /** `strconv.Atoi` on unsigned decimal text. The worker ignores Atoi's error, so text that
      is empty or holds a non-digit reads as 0, which is what Atoi returns with its error. */
  function Atoi(s: string): nat
  {
    if s != [] && AllDigits(s) then DigitsValue(s) else 0
  }

  /** `strconv.Itoa` on a non-negative number: its decimal text, without leading zeros. */
  function Itoa(n: nat): (s: string)
    ensures |s| > 0 && AllDigits(s)
    ensures n >= 1 ==> Canonical(s)
    ensures n < 10 <==> |s| == 1
  {
    if n < 10 then [DigitChar(n)] else Itoa(n / 10) + [DigitChar(n % 10)]
  }

  /** Reading back what Itoa wrote gives the number again. */
  lemma {:induction false} AtoiItoa(n: nat)
    ensures Atoi(Itoa(n)) == n
  {
    var s := Itoa(n);
    if n >= 10 {
      AtoiItoa(n / 10);
      assert s[..|s| - 1] == Itoa(n / 10);
      assert DigitsValue(s) == (n / 10) * 10 + n % 10;
    } else {
      assert s == [DigitChar(n)] && s[..0] == [];
      assert AllDigits(s) && DigitsValue(s) == DigitsValue(s[..0]) * 10 + DigitValue(s[0]);
    }
  }

  /** Every canonical identifier reads as a positive number. */
  lemma {:induction false} CanonicalPositive(s: string)
    requires Canonical(s)
    ensures Atoi(s) >= 1
  {
    if |s| > 1 {
      var p := s[..|s| - 1];
      assert Canonical(p) by { assert p[0] == s[0]; }
      CanonicalPositive(p);
    }
  }

  /** Writing back what Atoi read from a canonical identifier gives the same text: this is why
      the insert walk may look up `Itoa(Atoi(next))` in place of `next`. */
  lemma {:induction false} ItoaAtoi(s: string)
    requires Canonical(s)
    ensures Itoa(Atoi(s)) == s
  {
    if |s| == 1 {
      assert s[..0] == [];
      assert DigitsValue(s) == DigitsValue(s[..0]) * 10 + DigitValue(s[0]);
      assert DigitChar(DigitValue(s[0])) == s[0];
      assert s == [s[0]];
    } else {
      var p := s[..|s| - 1];
      assert Canonical(p) by { assert p[0] == s[0]; }
      CanonicalPositive(p);
      ItoaAtoi(p);
      var v := Atoi(s);
      assert v == DigitsValue(p) * 10 + DigitValue(s[|s| - 1]);
      assert v / 10 == Atoi(p) && v % 10 == DigitValue(s[|s| - 1]);
      assert DigitChar(DigitValue(s[|s| - 1])) == s[|s| - 1];
      assert s == p + [s[|s| - 1]];
    }
  }

  lemma {:induction false} DigitsValueConcat(a: string, b: string)
    requires AllDigits(a) && AllDigits(b)
    ensures AllDigits(a + b)
    ensures DigitsValue(a + b) == DigitsValue(a) * Pow10(|b|) + DigitsValue(b)
  {
    if b == [] {
      assert a + b == a;
    } else {
      var b' := b[..|b| - 1];
      DigitsValueConcat(a, b');
      assert (a + b)[..|a + b| - 1] == a + b';
      assert b[..|b| - 1] == b';
      var x, y, p, d := DigitsValue(a), DigitsValue(b'), Pow10(|b'|), DigitValue(b[|b| - 1]);
      assert (a + b)[|a + b| - 1] == b[|b| - 1];
      assert DigitsValue(a + b) == (x * p + y) * 10 + d;
      assert DigitsValue(b) == y * 10 + d;
      assert Pow10(|b|) == p * 10;
      ShiftDigit(x, y, p, d);
    }
  }

  lemma ShiftDigit(x: nat, y: nat, p: nat, d: nat)
    ensures (x * p + y) * 10 + d == x * (p * 10) + (y * 10 + d)
  {
  }

  /** The identifier minted for an operation: the document's counter followed by the worker's id,
      both as decimal text (worker/worker.go:322). */
  function MintId(counter: nat, workerId: nat): (id: string)
    ensures counter >= 1 ==> Canonical(id)
  {
    Itoa(counter) + Itoa(workerId)
  }

  /** Numerically, a minted identifier is the counter shifted left by the worker id's digits. */
  lemma MintIdValue(counter: nat, workerId: nat)
    ensures Atoi(MintId(counter, workerId)) == counter * Pow10(|Itoa(workerId)|) + workerId
  {
    DigitsValueConcat(Itoa(counter), Itoa(workerId));
    AtoiItoa(counter);
    AtoiItoa(workerId);
  }

  /** A worker's later operations carry numerically larger identifiers. */
  lemma MintIdIncreases(counter: nat, workerId: nat)
    ensures Atoi(MintId(counter, workerId)) < Atoi(MintId(counter + 1, workerId))
  {
    MintIdValue(counter, workerId);
    MintIdValue(counter + 1, workerId);
    PowBound(workerId);
    NextMultiple(counter, Pow10(|Itoa(workerId)|), workerId);
  }

  lemma NextMultiple(c: nat, p: nat, w: nat)
    requires w < p
    ensures c * p + w < (c + 1) * p + w
  {
  }

  lemma {:induction false} PowBound(n: nat)
    ensures n < Pow10(|Itoa(n)|)
  {
    if n >= 10 {
      PowBound(n / 10);
      assert |Itoa(n)| == |Itoa(n / 10)| + 1;
    }
  }

  /** Two workers minting at the same counter value never produce the same identifier. */
  lemma MintIdDistinctWorkers(counter: nat, w1: nat, w2: nat)
    requires w1 != w2
    ensures MintId(counter, w1) != MintId(counter, w2)
  {
    var c := Itoa(counter);
    if MintId(counter, w1) == MintId(counter, w2) {
      assert Itoa(w1) == MintId(counter, w1)[|c|..];
      assert Itoa(w2) == MintId(counter, w2)[|c|..];
      AtoiItoa(w1);
      AtoiItoa(w2);
    }
  }

  /** As written, different (counter, worker) pairs can mint the same identifier:
      counter 11 at worker 1 and counter 1 at worker 11 both mint "111". */
  lemma MintIdCollision()
    ensures MintId(11, 1) == MintId(1, 11) == "111"
  {
    assert Itoa(11) == Itoa(1) + [DigitChar(1)];
  }
}

=== FILE: insert_properties.dfy ===
/** What an insert does to a document: it keeps the chain well formed, adds exactly the new id,
    and shows the new text right after the anchor; and two concurrent inserts at the same place
    end in the same document whichever arrives first. */
module InsertProperties {
  import opened Ids
  import opened Document

  lemma {:induction false} RenderConcat(m: map<string, Element>, a: seq<string>, b: seq<string>)
    requires forall k :: k in a ==> k in m
    requires forall k :: k in b ==> k in m
    ensures forall k :: k in a + b ==> k in m
    ensures Render(m, a + b) == Render(m, a) + Render(m, b)
  {
    if b == [] {
      assert a + b == a;
    } else {
      var b' := b[..|b| - 1];
      RenderConcat(m, a, b');
      assert (a + b)[..|a + b| - 1] == a + b';
    }
  }

  /** Rendering reads only the texts of the elements it visits. */
  lemma {:induction false} RenderSameTexts(m1: map<string, Element>, m2: map<string, Element>, ids: seq<string>)
    requires forall k :: k in ids ==> k in m1 && k in m2 && m1[k].text == m2[k].text
    ensures Render(m1, ids) == Render(m2, ids)
  {
    if ids != [] {
      RenderSameTexts(m1, m2, ids[..|ids| - 1]);
    }
  }

  lemma FirstEntryWellFormed(d: Doc, e: Element)
    requires WellFormed(d) && OpOk(d, e) && |d.elements| == 0
    ensures WellFormed(Insert(d, e))
  {
    EmptyIffNoOrder(d);
  }

  lemma SentinelWellFormed(d: Doc, e: Element)
    requires WellFormed(d) && OpOk(d, e) && |d.elements| > 0 && e.prevId == InitialId
    ensures WellFormed(Insert(d, e))
  {
    EmptyIffNoOrder(d);
    var f := d.firstId;
    var m' := d.elements[f := d.elements[f].(prevId := e.id)][e.id := e.(nextId := f)];
    assert Insert(d, e) == Doc(m', e.id, d.nextOpNumber + 1, [e.id] + d.order);
    PrependWellFormed(d, e.(nextId := f), m');
  }

  /** Putting a fresh element linked to the old first one in front keeps the chain well formed. */
  lemma PrependWellFormed(d: Doc, stored: Element, m': map<string, Element>)
    requires WellFormed(d) && |d.order| > 0 && Canonical(stored.id) && stored.id !in d.elements
    requires stored.nextId == d.firstId
    requires m' == d.elements[d.firstId := d.elements[d.firstId].(prevId := stored.id)][stored.id := stored]
    ensures WellFormed(Doc(m', stored.id, d.nextOpNumber + 1, [stored.id] + d.order))
  {
    var x := stored.id;
    var o := d.order;
    var o' := [x] + o;
    assert x !in o;
    forall i | 0 <= i < |o'| - 1
      ensures m'[o'[i]].nextId == o'[i + 1]
    {
      if i > 0 {
        assert o'[i] == o[i - 1] && o'[i + 1] == o[i];
      }
    }
  }

  lemma SpliceAt(s: seq<string>, k: nat, x: string, j: nat)
    requires k < |s| && j < |s| + 1
    ensures |Splice(s, k, x)| == |s| + 1
    ensures Splice(s, k, x)[j] == if j <= k then s[j] else if j == k + 1 then x else s[j - 1]
  {
  }

  lemma SpliceDistinct(o: seq<string>, k: nat, x: string)
    requires Distinct(o) && k < |o| && x !in o
    ensures Distinct(Splice(o, k, x))
  {
    var o' := Splice(o, k, x);
    forall i, j | 0 <= i < j < |o'| ensures o'[i] != o'[j] {
      SpliceAt(o, k, x, i);
      SpliceAt(o, k, x, j);
    }
  }

  lemma SpliceMembers(o: seq<string>, k: nat, x: string, y: string)
    requires k < |o|
    ensures y in Splice(o, k, x) <==> y in o || y == x
  {
    var o' := Splice(o, k, x);
    if y in o {
      var i := IndexOf(o, y);
      SpliceAt(o, k, x, if i <= k then i else i + 1);
    }
    if y in o' {
      var j := IndexOf(o', y);
      SpliceAt(o, k, x, j);
    }
    if y == x {
      SpliceAt(o, k, x, k + 1);
    }
  }

  lemma SpliceLinkAt(d: Doc, k: nat, x: string, stored: Element, m: map<string, Element>, i: nat)
    requires WellFormed(d) && k < |d.order| && x !in d.elements
    requires stored.nextId == d.elements[d.order[k]].nextId
    requires m == d.elements[d.order[k] := d.elements[d.order[k]].(nextId := x)][x := stored]
    requires i < |d.order|
    ensures var o' := Splice(d.order, k, x);
      o'[i] in m && m[o'[i]].nextId == o'[i + 1]
  {
    var o := d.order;
    SpliceAt(o, k, x, i);
    SpliceAt(o, k, x, i + 1);
    assert x !in o;
    if i < k {
      assert o[i] != o[k];
    } else if i > k + 1 {
      assert o[i - 1] != o[k];
    }
  }

  lemma SpliceLinks(d: Doc, k: nat, x: string, stored: Element, m: map<string, Element>)
    requires WellFormed(d) && k < |d.order| && x !in d.elements
    requires stored.nextId == d.elements[d.order[k]].nextId
    requires m == d.elements[d.order[k] := d.elements[d.order[k]].(nextId := x)][x := stored]
    ensures var o' := Splice(d.order, k, x);
      && (forall i :: 0 <= i < |o'| - 1 ==> o'[i] in m && m[o'[i]].nextId == o'[i + 1])
      && o'[|o'| - 1] in m && m[o'[|o'| - 1]].nextId == ""
  {
    var o := d.order;
    var o' := Splice(o, k, x);
    forall i | 0 <= i < |o'| - 1
      ensures o'[i] in m && m[o'[i]].nextId == o'[i + 1]
    {
      SpliceAt(o, k, x, i);
      SpliceLinkAt(d, k, x, stored, m, i);
    }
    SpliceAt(o, k, x, |o|);
    assert x !in o;
    if k < |o| - 1 {
      assert o[|o| - 1] != o[k];
    }
  }

  /** Linking a fresh id `x` after position `k` keeps the chain well formed. */
  lemma SpliceWellFormed(d: Doc, k: nat, x: string, stored: Element)
    requires WellFormed(d) && k < |d.order|
    requires Canonical(x) && x !in d.elements
    requires stored.id == x && stored.nextId == d.elements[d.order[k]].nextId
    ensures var a := d.order[k];
      WellFormed(Doc(d.elements[a := d.elements[a].(nextId := x)][x := stored],
                     d.firstId, d.nextOpNumber + 1, Splice(d.order, k, x)))
  {
    var o := d.order;
    var a := o[k];
    var m := d.elements[a := d.elements[a].(nextId := x)][x := stored];
    var o' := Splice(o, k, x);
    assert x !in o;
    SpliceDistinct(o, k, x);
    SpliceKeys(d, k, x, stored, m);
    SpliceLinks(d, k, x, stored, m);
    SpliceAt(o, k, x, 0);
    assert |o'| > 0 && o'[0] == d.firstId;
  }

  lemma SpliceKeys(d: Doc, k: nat, x: string, stored: Element, m: map<string, Element>)
    requires WellFormed(d) && k < |d.order| && Canonical(x) && stored.id == x
    requires m == d.elements[d.order[k] := d.elements[d.order[k]].(nextId := x)][x := stored]
    ensures forall y :: y in m <==> y in Splice(d.order, k, x)
    ensures forall y :: y in m ==> m[y].id == y && Canonical(y)
  {
    forall y ensures y in m <==> y in Splice(d.order, k, x) {
      SpliceMembers(d.order, k, x, y);
    }
  }

  lemma NormalWellFormed(d: Doc, e: Element)
    requires WellFormed(d) && OpOk(d, e) && |d.elements| > 0 && e.prevId != InitialId
    ensures WellFormed(Insert(d, e))
  {
    EmptyIffNoOrder(d);
    var k := Anchor(d, e);
    SpliceWellFormed(d, k, e.id, Placed(d, e));
  }

  /** What every insert records: exactly one new key, the new id, holding the placed element,
      and a counter advanced by one. */
  lemma InsertBookkeeping(d: Doc, e: Element)
    requires WellFormed(d) && Resolvable(d, e)
    ensures Insert(d, e).elements.Keys == d.elements.Keys + {e.id}
    ensures Insert(d, e).elements[e.id] == Placed(d, e)
    ensures Insert(d, e).nextOpNumber == d.nextOpNumber + 1
  {
  }

  /** An insert that satisfies OpOk keeps the document well formed, adds exactly its own id,
      stores the placed element under it and advances the counter by one. */
  lemma InsertWellFormed(d: Doc, e: Element)
    requires WellFormed(d) && OpOk(d, e)
    ensures WellFormed(Insert(d, e))
    ensures Insert(d, e).elements.Keys == d.elements.Keys + {e.id}
    ensures Insert(d, e).elements[e.id] == Placed(d, e)
    ensures Insert(d, e).nextOpNumber == d.nextOpNumber + 1
  {
    EmptyIffNoOrder(d);
    if |d.elements| == 0 {
      FirstEntryWellFormed(d, e);
    } else if e.prevId == InitialId {
      SentinelWellFormed(d, e);
    } else {
      NormalWellFormed(d, e);
    }
    InsertBookkeeping(d, e);
  }

  /** How each case of an insert relinks the chain. The first entry of an empty document becomes
      the first element whatever it references. An insert at the sentinel becomes the first
      element, is linked to the old first one, and that one now points back to it. A normal insert
      is linked in after its anchor and takes over the anchor's old successor. No other stored
      element changes. */
  lemma InsertLinks(d: Doc, e: Element)
    requires WellFormed(d) && OpOk(d, e)
    ensures |d.elements| == 0 ==> Insert(d, e).firstId == e.id && Insert(d, e).elements == map[e.id := e]
    ensures |d.elements| > 0 && e.prevId == InitialId ==>
      var f := d.firstId; var r := Insert(d, e);
      && f in d.elements && r.firstId == e.id
      && r.elements[e.id] == e.(nextId := f)
      && r.elements[f] == d.elements[f].(prevId := e.id)
      && (forall k :: k in d.elements && k != f ==> r.elements[k] == d.elements[k])
    ensures |d.elements| > 0 && e.prevId != InitialId ==>
      var a := d.order[Anchor(d, e)]; var r := Insert(d, e);
      && a in d.elements && r.firstId == d.firstId
      && r.elements[e.id] == e.(nextId := d.elements[a].nextId)
      && r.elements[a] == d.elements[a].(nextId := e.id)
      && (forall k :: k in d.elements && k != a ==> r.elements[k] == d.elements[k])
  {
    EmptyIffNoOrder(d);
  }

  /** Each case of an insert written out, for callers that build the document field by field. */
  lemma InsertCases(d: Doc, e: Element)
    requires WellFormed(d) && Resolvable(d, e)
    ensures |d.elements| == 0 ==>
      && Placed(d, e) == e
      && Insert(d, e) == Doc(d.elements[e.id := e], e.id, d.nextOpNumber + 1, [e.id])
    ensures |d.elements| > 0 && e.prevId == InitialId ==>
      var f := d.firstId;
      && f in d.elements
      && Placed(d, e) == e.(nextId := f)
      && Insert(d, e) == Doc(d.elements[f := d.elements[f].(prevId := e.id)][e.id := e.(nextId := f)],
                             e.id, d.nextOpNumber + 1, [e.id] + d.order)
    ensures |d.elements| > 0 && e.prevId != InitialId ==>
      var k := Anchor(d, e); var a := d.order[k];
      && a in d.elements
      && Placed(d, e) == e.(nextId := d.elements[a].nextId)
      && Insert(d, e) == Doc(d.elements[a := d.elements[a].(nextId := e.id)][e.id := Placed(d, e)],
                             d.firstId, d.nextOpNumber + 1, Splice(d.order, k, e.id))
  {
    EmptyIffNoOrder(d);
  }

  lemma RenderSingle(m: map<string, Element>, x: string)
    requires x in m
    ensures Render(m, [x]) == m[x].text
  {
    assert [x][..0] == [];
  }

  /** Rendering after linking `x` in after position `k`: the old text up to `k`, then the text of
      `x`, then the rest of the old text. */
  lemma RenderSplice(m: map<string, Element>, m': map<string, Element>, o: seq<string>, k: nat, x: string)
    requires k < |o| && x in m'
    requires forall y :: y in o ==> y in m && y in m' && m[y].text == m'[y].text
    ensures forall y :: y in Splice(o, k, x) ==> y in m'
    ensures Render(m, o) == Render(m, o[..k + 1]) + Render(m, o[k + 1..])
    ensures Render(m', Splice(o, k, x)) == Render(m, o[..k + 1]) + m'[x].text + Render(m, o[k + 1..])
  {
    var pre, post := o[..k + 1], o[k + 1..];
    assert o == pre + post;
    RenderConcat(m, pre, post);
    assert forall y :: y in pre ==> y in o;
    assert forall y :: y in post ==> y in o;
    RenderConcat(m', pre, [x]);
    RenderConcat(m', pre + [x], post);
    RenderSingle(m', x);
    RenderSameTexts(m', m, pre);
    RenderSameTexts(m', m, post);
  }

  lemma RenderFirstEntry(d: Doc, e: Element)
    requires WellFormed(d) && OpOk(d, e) && |d.elements| == 0
    ensures WellFormed(Insert(d, e)) && Message(Insert(d, e)) == e.text
  {
    InsertWellFormed(d, e);
    var r := Insert(d, e);
    assert r.order == [e.id] && r.elements[e.id] == e;
    RenderSingle(r.elements, e.id);
  }

  lemma RenderSentinel(d: Doc, e: Element)
    requires WellFormed(d) && OpOk(d, e) && |d.elements| > 0 && e.prevId == InitialId
    ensures WellFormed(Insert(d, e)) && Message(Insert(d, e)) == e.text + Message(d)
  {
    InsertWellFormed(d, e);
    EmptyIffNoOrder(d);
    var f := d.firstId;
    var stored := e.(nextId := f);
    var m' := d.elements[f := d.elements[f].(prevId := e.id)][e.id := stored];
    assert Insert(d, e) == Doc(m', e.id, d.nextOpNumber + 1, [e.id] + d.order);
    TextsKept(d.elements, f, d.elements[f].(prevId := e.id), stored, d.order);
    RenderConcat(m', [e.id], d.order);
    RenderSingle(m', e.id);
    RenderSameTexts(m', d.elements, d.order);
  }

  lemma RenderNormal(d: Doc, e: Element)
    requires WellFormed(d) && OpOk(d, e) && |d.elements| > 0 && e.prevId != InitialId
    ensures WellFormed(Insert(d, e))
    ensures var k := Anchor(d, e);
      && Message(d) == Render(d.elements, d.order[..k + 1]) + Render(d.elements, d.order[k + 1..])
      && Message(Insert(d, e)) ==
         Render(d.elements, d.order[..k + 1]) + e.text + Render(d.elements, d.order[k + 1..])
  {
    InsertWellFormed(d, e);
    InsertCases(d, e);
    var k := Anchor(d, e);
    var a := d.order[k];
    var p := Placed(d, e);
    var m' := d.elements[a := d.elements[a].(nextId := e.id)][e.id := p];
    var r := Insert(d, e);
    assert r.elements == m' && r.order == Splice(d.order, k, e.id) && p.text == e.text;
    TextsKept(d.elements, a, d.elements[a].(nextId := e.id), p, d.order);
    RenderSplice(d.elements, m', d.order, k, e.id);
  }

  /** Relinking `a` and adding a new element leave the texts of the old elements alone. */
  lemma TextsKept(m: map<string, Element>, a: string, relinked: Element, stored: Element, o: seq<string>)
    requires a in m && relinked.text == m[a].text && stored.id !in o
    requires forall y :: y in o ==> y in m
    ensures var m' := m[a := relinked][stored.id := stored];
      forall y :: y in o ==> y in m && y in m' && m[y].text == m'[y].text
  {
  }

  /** The message after an insert: the new text alone in an empty document, in front of the old
      message for the sentinel, and otherwise right after the anchor's text. */
  lemma InsertRender(d: Doc, e: Element)
    requires WellFormed(d) && OpOk(d, e)
    ensures WellFormed(Insert(d, e))
    ensures |d.elements| == 0 ==> Message(Insert(d, e)) == e.text
    ensures |d.elements| > 0 && e.prevId == InitialId ==>
      Message(Insert(d, e)) == e.text + Message(d)
    ensures |d.elements| > 0 && e.prevId != InitialId ==>
      var k := Anchor(d, e);
      && Message(d) == Render(d.elements, d.order[..k + 1]) + Render(d.elements, d.order[k + 1..])
      && Message(Insert(d, e)) ==
         Render(d.elements, d.order[..k + 1]) + e.text + Render(d.elements, d.order[k + 1..])
  {
    if |d.elements| == 0 {
      RenderFirstEntry(d, e);
    } else if e.prevId == InitialId {
      RenderSentinel(d, e);
    } else {
      RenderNormal(d, e);
    }
  }

  /** Two concurrent inserts that reference the same element A, where A has no successor, from
      different clients and with different numeric ids, produce the same document in either
      order of arrival: A, then the element with the larger id, then the other. */
  lemma TwoInsertsConverge(d: Doc, x: Element, y: Element)
    requires WellFormed(d)
    requires x.prevId == y.prevId && x.prevId in d.elements && x.prevId != InitialId
    requires d.elements[x.prevId].nextId == ""
    requires OpOk(d, x) && OpOk(d, y)
    requires Atoi(x.id) != Atoi(y.id) && x.clientId != y.clientId
    ensures WellFormed(Insert(d, x)) && WellFormed(Insert(d, y))
    ensures OpOk(Insert(d, x), y) && OpOk(Insert(d, y), x)
    ensures Insert(Insert(d, x), y) == Insert(Insert(d, y), x)
    ensures Insert(Insert(d, x), y).order ==
      if Atoi(x.id) > Atoi(y.id) then d.order + [x.id, y.id] else d.order + [y.id, x.id]
  {
    InsertWellFormed(d, x);
    InsertWellFormed(d, y);
    if Atoi(x.id) > Atoi(y.id) {
      ConvergeOrdered(d, x, y);
    } else {
      ConvergeOrdered(d, y, x);
    }
  }

  /** An element without a successor is the last one, and the walk from it stops at once. */
  lemma LastAnchor(d: Doc, e: Element)
    requires WellFormed(d) && e.prevId in d.elements && d.elements[e.prevId].nextId == ""
    ensures d.order[|d.order| - 1] == e.prevId
    ensures Anchor(d, e) == |d.order| - 1
  {
    LastOrLinked(d, IndexOf(d.order, e.prevId));
  }

  /** The walk stops at its reference when the reference has no successor, or when the successor
      comes from the same client as the new element, whatever the ids. */
  lemma AnchorAtReference(d: Doc, e: Element)
    requires WellFormed(d) && e.prevId in d.elements
    ensures var n := d.elements[e.prevId].nextId;
      (n == "" || (n in d.elements && d.elements[n].clientId == e.clientId)) ==>
        d.order[Anchor(d, e)] == e.prevId
  {
    var i := IndexOf(d.order, e.prevId);
    LastOrLinked(d, i);
    if i + 1 < |d.order| {
      assert d.elements[d.order[i]].nextId == d.order[i + 1];
    }
  }

  /** The chain order is fixed by the stored fields: two well-formed documents with the same
      elements and the same first id list their ids in the same order. So `order` adds no
      information to the three fields the source keeps. */
  lemma OrderDetermined(d1: Doc, d2: Doc)
    requires WellFormed(d1) && WellFormed(d2)
    requires d1.elements == d2.elements && d1.firstId == d2.firstId
    ensures d1.order == d2.order
  {
    EmptyIffNoOrder(d1);
    EmptyIffNoOrder(d2);
    if |d1.order| > 0 {
      var n := if |d1.order| < |d2.order| then |d1.order| else |d2.order|;
      forall i | 0 <= i < n ensures d1.order[i] == d2.order[i] {
        PrefixAgree(d1, d2, i);
      }
      // The shorter chain's last element has an empty `nextId`, so it is the longer one's last too.
      LastOrLinked(d1, n - 1);
      LastOrLinked(d2, n - 1);
    }
  }

  /** Both chains visit the same id at every position they share. */
  lemma {:induction false} PrefixAgree(d1: Doc, d2: Doc, i: nat)
    requires WellFormed(d1) && WellFormed(d2)
    requires d1.elements == d2.elements && d1.firstId == d2.firstId
    requires i < |d1.order| && i < |d2.order|
    ensures d1.order[i] == d2.order[i]
  {
    if i > 0 {
      PrefixAgree(d1, d2, i - 1);
    }
  }

  /** Only the last element of the chain has an empty `nextId`. */
  lemma LastOrLinked(d: Doc, i: nat)
    requires WellFormed(d) && i < |d.order|
    ensures i == |d.order| - 1 || d.elements[d.order[i]].nextId != ""
  {
    if i < |d.order| - 1 {
      assert d.order[i + 1] in d.elements;
    }
  }

  /** A normal insert whose anchor is the last element appends the new id. */
  lemma AppendShape(d: Doc, e: Element)
    requires WellFormed(d) && OpOk(d, e) && |d.elements| > 0 && e.prevId != InitialId
    requires Anchor(d, e) == |d.order| - 1
    ensures var a := d.order[|d.order| - 1];
      Insert(d, e) == Doc(d.elements[a := d.elements[a].(nextId := e.id)][e.id := e.(nextId := "")],
                          d.firstId, d.nextOpNumber + 1, d.order + [e.id])
  {
    EmptyIffNoOrder(d);
    var o := d.order;
    assert Splice(o, |o| - 1, e.id) == o + [e.id] by { assert o[|o|..] == []; }
  }

  /** A normal insert anchored just before the last element goes in front of it. */
  lemma BeforeLastShape(d: Doc, e: Element)
    requires WellFormed(d) && OpOk(d, e) && |d.elements| > 0 && e.prevId != InitialId
    requires |d.order| >= 2 && Anchor(d, e) == |d.order| - 2
    ensures var n := |d.order|; var a := d.order[n - 2];
      Insert(d, e) == Doc(d.elements[a := d.elements[a].(nextId := e.id)][e.id := e.(nextId := d.order[n - 1])],
                          d.firstId, d.nextOpNumber + 1, d.order[..n - 1] + [e.id, d.order[n - 1]])
  {
    EmptyIffNoOrder(d);
    var o := d.order;
    var n := |o|;
    assert Splice(o, n - 2, e.id) == o[..n - 1] + [e.id, o[n - 1]] by {
      assert o[n - 1..] == [o[n - 1]];
    }
  }

  /** TwoInsertsConverge with the larger id named `hi`. */
  lemma ConvergeOrdered(d: Doc, hi: Element, lo: Element)
    requires WellFormed(d)
    requires hi.prevId == lo.prevId && hi.prevId in d.elements && hi.prevId != InitialId
    requires d.elements[hi.prevId].nextId == ""
    requires OpOk(d, hi) && OpOk(d, lo)
    requires Atoi(hi.id) > Atoi(lo.id) && hi.clientId != lo.clientId
    ensures WellFormed(Insert(d, hi)) && WellFormed(Insert(d, lo))
    ensures OpOk(Insert(d, hi), lo) && OpOk(Insert(d, lo), hi)
    ensures Insert(Insert(d, hi), lo) == Insert(Insert(d, lo), hi)
    ensures Insert(Insert(d, hi), lo).order == d.order + [hi.id, lo.id]
  {
    EmptyIffNoOrder(d);
    LastAnchor(d, hi);
    LastAnchor(d, lo);
    // hi first: it is appended after A, and lo walks past it.
    InsertWellFormed(d, hi);
    AppendShape(d, hi);
    OpOkAfterInsert(d, hi, lo);
    HiThenLo(d, hi, lo, Insert(d, hi));
    // lo first: it is appended after A, and hi stops in front of it.
    InsertWellFormed(d, lo);
    AppendShape(d, lo);
    OpOkAfterInsert(d, lo, hi);
    LoThenHi(d, hi, lo, Insert(d, lo));
    SwapLinks(d.elements, hi.prevId, hi, lo);
  }

  /** An insert that was acceptable before another insert into a non-empty document with a
      different id stays acceptable after it: the keys only grow. */
  lemma OpOkAfterInsert(d: Doc, x: Element, y: Element)
    requires WellFormed(d) && OpOk(d, x) && OpOk(d, y) && |d.elements| > 0 && x.id != y.id
    ensures OpOk(Insert(d, x), y)
  {
    InsertBookkeeping(d, x);
  }

  /** The two orders of arrival write the same links. */
  lemma SwapLinks(m: map<string, Element>, a: string, hi: Element, lo: Element)
    requires a in m && a != hi.id && a != lo.id && hi.id != lo.id
    ensures m[a := m[a].(nextId := hi.id)][hi.id := hi.(nextId := lo.id)][lo.id := lo.(nextId := "")]
         == m[a := m[a].(nextId := lo.id)][lo.id := lo.(nextId := "")][a := m[a].(nextId := hi.id)][hi.id := hi.(nextId := lo.id)]
  {
  }

  /** After `hi` is appended after A, the walk for `lo` from A moves past `hi` and stops at the end. */
  lemma PassesAppended(d: Doc, hi: Element, lo: Element, dh: Doc)
    requires WellFormed(dh) && |d.order| > 0 && dh.order == d.order + [hi.id]
    requires hi.prevId == d.order[|d.order| - 1] && lo.prevId == hi.prevId
    requires hi.id in dh.elements && dh.elements[hi.id].clientId == hi.clientId
    requires Atoi(hi.id) > Atoi(lo.id) && hi.clientId != lo.clientId
    ensures lo.prevId in dh.elements && Anchor(dh, lo) == |d.order|
  {
    var n := |d.order|;
    IndexOfDistinct(dh.order, lo.prevId, n - 1);
    assert Passes(dh, dh.order[n], lo);
  }

  lemma HiThenLo(d: Doc, hi: Element, lo: Element, dh: Doc)
    requires |d.order| > 0 && hi.prevId == d.order[|d.order| - 1] && hi.prevId in d.elements
    requires dh == Doc(d.elements[hi.prevId := d.elements[hi.prevId].(nextId := hi.id)][hi.id := hi.(nextId := "")],
                       d.firstId, d.nextOpNumber + 1, d.order + [hi.id])
    requires WellFormed(dh) && OpOk(dh, lo) && lo.prevId == hi.prevId && lo.prevId != InitialId
    requires Atoi(hi.id) > Atoi(lo.id) && hi.clientId != lo.clientId
    ensures var a := hi.prevId;
      Insert(dh, lo) == Doc(d.elements[a := d.elements[a].(nextId := hi.id)][hi.id := hi.(nextId := lo.id)][lo.id := lo.(nextId := "")],
                            d.firstId, d.nextOpNumber + 2, d.order + [hi.id, lo.id])
  {
    var n := |d.order|;
    PassesAppended(d, hi, lo, dh);
    assert |dh.elements| > 0;
    AppendShape(dh, lo);
    assert dh.order[n] == hi.id;
    assert dh.order + [lo.id] == d.order + [hi.id, lo.id];
  }

  lemma LoThenHi(d: Doc, hi: Element, lo: Element, dl: Doc)
    requires WellFormed(d) && |d.order| > 0 && lo.prevId == d.order[|d.order| - 1]
    requires dl == Doc(d.elements[lo.prevId := d.elements[lo.prevId].(nextId := lo.id)][lo.id := lo.(nextId := "")],
                       d.firstId, d.nextOpNumber + 1, d.order + [lo.id])
    requires WellFormed(dl) && OpOk(dl, hi) && lo.prevId == hi.prevId && hi.prevId != InitialId
    requires Atoi(hi.id) > Atoi(lo.id)
    ensures var a := hi.prevId;
      Insert(dl, hi) == Doc(d.elements[a := d.elements[a].(nextId := lo.id)][lo.id := lo.(nextId := "")][a := d.elements[a].(nextId := hi.id)][hi.id := hi.(nextId := lo.id)],
                            d.firstId, d.nextOpNumber + 2, d.order + [hi.id, lo.id])
  {
    var n := |d.order|;
    assert IndexOf(dl.order, hi.prevId) == n - 1 by { IndexOfDistinct(dl.order, hi.prevId, n - 1); }
    assert !Passes(dl, dl.order[n], hi);
    assert Anchor(dl, hi) == n - 1;
    assert |dl.elements| > 0;
    BeforeLastShape(dl, hi);
    assert dl.order[..n] == d.order;
  }

  lemma IndexOfDistinct(s: seq<string>, x: string, i: nat)
    requires Distinct(s) && i < |s| && s[i] == x
    ensures IndexOf(s, x) == i
  {
  }

  /** The scenario of three inserts: "a" at the sentinel of an empty document, then "b" after it
      from the same client, then "c" from another client with the larger id 21 after "a". The
      walk stops at "a" because 12 < 21, so the message reads "acb". */
  lemma ScenarioAcb()
    ensures var a := Element("s", "1", false, "11", InitialId, "", "a");
      var b := Element("s", "1", false, "12", "11", "", "b");
      var c := Element("s", "2", false, "21", "11", "", "c");
      && OpOk(EmptyDoc, a) && WellFormed(Insert(EmptyDoc, a))
      && OpOk(Insert(EmptyDoc, a), b) && WellFormed(Insert(Insert(EmptyDoc, a), b))
      && OpOk(Insert(Insert(EmptyDoc, a), b), c) && WellFormed(Insert(Insert(Insert(EmptyDoc, a), b), c))
      && Message(Insert(EmptyDoc, a)) == "a"
      && Message(Insert(Insert(EmptyDoc, a), b)) == "ab"
      && Message(Insert(Insert(Insert(EmptyDoc, a), b), c)) == "acb"
  {
    var a := Element("s", "1", false, "11", InitialId, "", "a");
    var b := Element("s", "1", false, "12", "11", "", "b");
    var c := Element("s", "2", false, "21", "11", "", "c");
    ScenarioIds();
    var d1 := ScenarioStep1(a);
    var d2 := ScenarioStep2(a, b, d1);
    var d3 := ScenarioStep3(a, b, c, d2);
    Letters('a', 'b', 'c');
  }

  lemma Letters(x: char, y: char, z: char)
    ensures [x] + [y] == [x, y] && [x] + [z] + [y] == [x, z, y]
  {
  }

  lemma ScenarioIds()
    ensures Canonical("11") && Canonical("12") && Canonical("21")
    ensures Atoi("12") == 12 && Atoi("21") == 21
  {
    assert Itoa(12) == "12";
    assert Itoa(21) == "21";
    AtoiItoa(12);
    AtoiItoa(21);
  }

  /** The first insert of the scenario: the element becomes the whole document. */
  lemma ScenarioStep1(a: Element) returns (d1: Doc)
    requires a.prevId == InitialId && a.nextId == "" && Canonical(a.id)
    ensures OpOk(EmptyDoc, a) && d1 == Insert(EmptyDoc, a) && WellFormed(d1)
    ensures d1 == Doc(map[a.id := a], a.id, 2, [a.id]) && Message(d1) == a.text
  {
    InsertWellFormed(EmptyDoc, a);
    d1 := Insert(EmptyDoc, a);
    RenderSingle(d1.elements, a.id);
  }

  /** The second insert: linked in after the only element. */
  lemma ScenarioStep2(a: Element, b: Element, d1: Doc) returns (d2: Doc)
    requires d1 == Doc(map[a.id := a], a.id, 2, [a.id]) && WellFormed(d1) && a.nextId == ""
    requires a.id != InitialId
    requires b.prevId == a.id && b.nextId == "" && Canonical(b.id) && b.id != a.id && Atoi(b.id) >= 1
    ensures OpOk(d1, b) && d2 == Insert(d1, b) && WellFormed(d2)
    ensures d2 == Doc(map[a.id := a.(nextId := b.id), b.id := b], a.id, 3, [a.id, b.id])
    ensures Message(d2) == a.text + b.text
  {
    Step2Shape(a, b, d1);
    InsertRender(d1, b);
    d2 := Insert(d1, b);
    assert d1.order[..1] == [a.id] && d1.order[1..] == [];
    RenderSingle(d1.elements, a.id);
  }

  lemma Step2Shape(a: Element, b: Element, d1: Doc)
    requires d1 == Doc(map[a.id := a], a.id, 2, [a.id]) && WellFormed(d1) && a.nextId == ""
    requires a.id != InitialId
    requires b.prevId == a.id && b.nextId == "" && Canonical(b.id) && b.id != a.id && Atoi(b.id) >= 1
    ensures OpOk(d1, b) && Anchor(d1, b) == 0
    ensures Insert(d1, b) == Doc(map[a.id := a.(nextId := b.id), b.id := b], a.id, 3, [a.id, b.id])
  {
    assert a.id in d1.elements;
    assert IndexOf(d1.order, a.id) == 0;
    assert Placed(d1, b) == b;
    var order := Splice(d1.order, 0, b.id);
    assert order == [a.id, b.id];
    var m := d1.elements[a.id := a.(nextId := b.id)][b.id := b];
    assert m == map[a.id := a.(nextId := b.id), b.id := b];
    assert Insert(d1, b) == Doc(m, a.id, 3, order);
  }

  /** The walk of the third insert stops at its reference, since the successor's id is smaller. */
  lemma ScenarioAnchor(a: Element, b: Element, c: Element, d2: Doc)
    requires d2 == Doc(map[a.id := a.(nextId := b.id), b.id := b], a.id, 3, [a.id, b.id]) && WellFormed(d2)
    requires c.prevId == a.id && c.nextId == "" && Canonical(c.id) && c.id != a.id && c.id != b.id
    requires a.id != InitialId && Atoi(b.id) < Atoi(c.id) && Atoi(c.id) >= 1
    ensures OpOk(d2, c) && |d2.elements| > 0 && Anchor(d2, c) == 0
    ensures d2.order[..1] == [a.id] && d2.order[1..] == [b.id]
  {
    assert a.id in d2.elements;
    assert IndexOf(d2.order, a.id) == 0;
    assert !Passes(d2, b.id, c);
  }

  /** The third insert: from another client, with a larger id, referencing the first element; it
      goes between the two. */
  lemma ScenarioStep3(a: Element, b: Element, c: Element, d2: Doc) returns (d3: Doc)
    requires d2 == Doc(map[a.id := a.(nextId := b.id), b.id := b], a.id, 3, [a.id, b.id]) && WellFormed(d2)
    requires c.prevId == a.id && c.nextId == "" && Canonical(c.id) && c.id != a.id && c.id != b.id
    requires a.id != InitialId && Atoi(b.id) < Atoi(c.id) && Atoi(c.id) >= 1
    ensures OpOk(d2, c) && d3 == Insert(d2, c) && WellFormed(d3)
    ensures Message(d3) == a.text + c.text + b.text
  {
    ScenarioAnchor(a, b, c, d2);
    RenderNormal(d2, c);
    d3 := Insert(d2, c);
    RenderSingle(d2.elements, a.id);
    RenderSingle(d2.elements, b.id);
  }

  /** An id minted twice breaks the chain. A document holds one element, minted by worker 11 at
      counter 1; worker 1 at counter 11 mints the same id and inserts at the sentinel. The insert
      overwrites the stored element with the new one, whose successor is itself, so following
      `nextId` from the first element never ends. */
  lemma CollidingInsertLoops()
    ensures var old1 := Element("s", Itoa(11), false, MintId(1, 11), InitialId, "", "x");
      var d := Doc(map[old1.id := old1], old1.id, 2, [old1.id]);
      var e := Element("s", Itoa(1), false, MintId(11, 1), InitialId, "", "y");
      && WellFormed(d) && Resolvable(d, e) && e.id in d.elements
      && Insert(d, e).elements[Insert(d, e).firstId].nextId == Insert(d, e).firstId
      && !WellFormed(Insert(d, e))
  {
    MintIdCollision();
    var old1 := Element("s", Itoa(11), false, MintId(1, 11), InitialId, "", "x");
    var d := Doc(map[old1.id := old1], old1.id, 2, [old1.id]);
    assert Canonical(old1.id);
    var e := Element("s", Itoa(1), false, MintId(11, 1), InitialId, "", "y");
    var r := Insert(d, e);
    assert r.elements == map[e.id := e.(nextId := e.id)] && r.firstId == e.id;
    if WellFormed(r) {
      NoSelfLink(r);
    }
  }

  /** The same in any document, whatever its size and counter: a sentinel insert whose id is
      already stored at position `p` of the chain makes that id the first element, linked to the
      old first element, while the links from there up to position `p` are kept. Following
      `nextId` from the new first element therefore comes back to it after `p + 1` steps. */
  lemma CollidingSentinelCycles(d: Doc, e: Element)
    requires WellFormed(d) && e.prevId == InitialId && e.id in d.elements
    ensures Resolvable(d, e)
    ensures var r := Insert(d, e); var p := IndexOf(d.order, e.id);
      && r.firstId == e.id && e.id in r.elements
      && r.elements[e.id].nextId == d.order[0]
      && (forall i :: 0 <= i < p ==> d.order[i] in r.elements && r.elements[d.order[i]].nextId == d.order[i + 1])
      && d.order[p] == e.id
  {
    EmptyIffNoOrder(d);
    var f := d.firstId;
    var m := d.elements[f := d.elements[f].(prevId := e.id)];
    assert Insert(d, e).elements == m[e.id := e.(nextId := f)];
    var p := IndexOf(d.order, e.id);
    forall i | 0 <= i < p
      ensures d.order[i] in m && m[d.order[i]].nextId == d.order[i + 1] && d.order[i] != e.id
    {
      assert d.order[i] in d.elements;
    }
  }

  /** In a well-formed document no element is its own successor. */
  lemma NoSelfLink(d: Doc)
    requires WellFormed(d) && d.firstId in d.elements
    ensures d.elements[d.firstId].nextId != d.firstId
  {
    EmptyIffNoOrder(d);
    if |d.order| > 1 {
      assert d.order[1] != d.order[0];
    }
  }
}

=== FILE: merge.dfy ===
/** The remote merge as a function on values: a batch of operations applied, one after the other,
    to a worker's documents, each skipped when its session is unknown or its id already stored,
    otherwise inserted, and recorded in the outgoing buffer. `Workers.Worker.ApplyIncomingOps` is
    proved against `ApplyBatch`. */
module Merge {
  import opened Ids
  import opened Document
  import opened InsertProperties

  ghost predicate AllWellFormed(docs: map<string, Doc>)
  {
    forall s :: s in docs ==> WellFormed(docs[s])
  }

  /** The merge's test: the session is known and the id is not stored yet. */
  predicate Fresh(docs: map<string, Doc>, op: Element)
  {
    op.sessionId in docs && op.id !in docs[op.sessionId].elements
  }

  /** An operation the merge may be given: when it is not skipped, it is an acceptable insert. */
  ghost predicate Acceptable(docs: map<string, Doc>, op: Element)
  {
    Fresh(docs, op) ==> OpOk(docs[op.sessionId], op)
  }

  /** The documents after one operation of a batch: the session's document becomes `Insert` of
      it when the operation is fresh; otherwise nothing changes. */
  function Apply(docs: map<string, Doc>, op: Element): (r: map<string, Doc>)
    requires AllWellFormed(docs) && Acceptable(docs, op)
    ensures AllWellFormed(r) && r.Keys == docs.Keys
  {
    if Fresh(docs, op) then
      var d := docs[op.sessionId];
      InsertWellFormed(d, op);
      UpdateWellFormed(docs, op.sessionId, Insert(d, op));
      docs[op.sessionId := Insert(d, op)]
    else
      docs
  }

  /** One operation adds its id to its session's document when it is fresh, and nothing else;
      afterwards the id is stored whenever the session is known. */
  lemma ApplyKeys(docs: map<string, Doc>, op: Element)
    requires AllWellFormed(docs) && Acceptable(docs, op)
    ensures var r := Apply(docs, op);
      forall s :: s in docs ==>
        r[s].elements.Keys == docs[s].elements.Keys + (if Fresh(docs, op) && s == op.sessionId then {op.id} else {})
    ensures op.sessionId in docs ==> op.id in Apply(docs, op)[op.sessionId].elements
  {
    if Fresh(docs, op) {
      InsertWellFormed(docs[op.sessionId], op);
      ApplyFresh(docs, op);
    } else {
      ApplySkip(docs, op);
    }
  }

  lemma UpdateWellFormed(docs: map<string, Doc>, s: string, d': Doc)
    requires AllWellFormed(docs) && WellFormed(d')
    ensures AllWellFormed(docs[s := d'])
  {
  }

  /** What one operation appends to the outgoing buffer: the stored copy, or nothing when skipped. */
  function Recorded(docs: map<string, Doc>, op: Element): seq<Element>
    requires AllWellFormed(docs) && Acceptable(docs, op)
  {
    if Fresh(docs, op) then [Placed(docs[op.sessionId], op)] else []
  }

  /** Every operation of the batch is acceptable when its turn comes. */
  ghost predicate BatchOk(docs: map<string, Doc>, ops: seq<Element>)
    requires AllWellFormed(docs)
    decreases |ops|
  {
    ops == [] || (Acceptable(docs, ops[0]) && BatchOk(Apply(docs, ops[0]), ops[1..]))
  }

  datatype Merged = Merged(docs: map<string, Doc>, recorded: seq<Element>)

  /** A batch applied in order. Every document stays well formed and no session is added or
      removed. */
  function ApplyBatch(docs: map<string, Doc>, ops: seq<Element>): (r: Merged)
    requires AllWellFormed(docs) && BatchOk(docs, ops)
    ensures AllWellFormed(r.docs) && r.docs.Keys == docs.Keys
    decreases |ops|
  {
    if ops == [] then Merged(docs, [])
    else
      var rest := ApplyBatch(Apply(docs, ops[0]), ops[1..]);
      Merged(rest.docs, Recorded(docs, ops[0]) + rest.recorded)
  }

  /** A batch loses no stored id, and afterwards every operation of a known session is stored. */
  lemma {:induction false} BatchKeeps(docs: map<string, Doc>, ops: seq<Element>)
    requires AllWellFormed(docs) && BatchOk(docs, ops)
    ensures var r := ApplyBatch(docs, ops).docs;
      && (forall s :: s in docs ==> docs[s].elements.Keys <= r[s].elements.Keys)
      && (forall op :: op in ops && op.sessionId in docs ==> op.id in r[op.sessionId].elements)
    decreases |ops|
  {
    if ops != [] {
      var next := Apply(docs, ops[0]);
      ApplyKeys(docs, ops[0]);
      BatchKeeps(next, ops[1..]);
      assert forall op :: op in ops ==> op == ops[0] || op in ops[1..];
    }
  }

  /** A non-empty batch is its first operation followed by the rest. */
  lemma BatchStep(docs: map<string, Doc>, ops: seq<Element>)
    requires AllWellFormed(docs) && BatchOk(docs, ops) && ops != []
    ensures Acceptable(docs, ops[0]) && BatchOk(Apply(docs, ops[0]), ops[1..])
    ensures var rest := ApplyBatch(Apply(docs, ops[0]), ops[1..]);
      ApplyBatch(docs, ops) == Merged(rest.docs, Recorded(docs, ops[0]) + rest.recorded)
  {
  }

  /** Part way through a batch: applying the rest of it to the current documents, with the
      buffer as it is now, ends with the documents `docs` and the buffer `total`. */
  ghost predicate Midway(cur: map<string, Doc>, rest: seq<Element>, docs: map<string, Doc>,
                         buffered: seq<Element>, total: seq<Element>)
  {
    && AllWellFormed(cur) && BatchOk(cur, rest)
    && ApplyBatch(cur, rest).docs == docs
    && buffered + ApplyBatch(cur, rest).recorded == total
  }

  lemma MidwayStart(docs: map<string, Doc>, ops: seq<Element>, buffered: seq<Element>)
    requires AllWellFormed(docs) && BatchOk(docs, ops)
    ensures var r := ApplyBatch(docs, ops); Midway(docs, ops, r.docs, buffered, buffered + r.recorded)
  {
  }

  lemma MidwayEnd(cur: map<string, Doc>, docs: map<string, Doc>, buffered: seq<Element>, total: seq<Element>)
    requires Midway(cur, [], docs, buffered, total)
    ensures cur == docs && buffered == total
  {
  }

  /** The next operation of what is left is acceptable. */
  lemma MidwayNext(cur: map<string, Doc>, rest: seq<Element>, docs: map<string, Doc>,
                   buffered: seq<Element>, total: seq<Element>)
    requires Midway(cur, rest, docs, buffered, total) && rest != []
    ensures Acceptable(cur, rest[0])
  {
  }

  /** The bookkeeping of one round of the merge loop: once the next operation is applied and
      recorded, the rest of the batch still ends with the same documents and the same buffer. */
  lemma BatchAdvance(cur: map<string, Doc>, rest: seq<Element>, docs: map<string, Doc>,
                     buffered: seq<Element>, total: seq<Element>, local: seq<Element>)
    requires Midway(cur, rest, docs, buffered, total) && rest != []
    requires local == buffered + Recorded(cur, rest[0])
    ensures Midway(Apply(cur, rest[0]), rest[1..], docs, local, total)
  {
    BatchStep(cur, rest);
    var next := ApplyBatch(Apply(cur, rest[0]), rest[1..]);
    var r0 := Recorded(cur, rest[0]);
    assert ApplyBatch(cur, rest) == Merged(next.docs, r0 + next.recorded);
    SeqAssoc(buffered, r0, next.recorded);
  }

  lemma SeqAssoc(a: seq<Element>, b: seq<Element>, c: seq<Element>)
    ensures (a + b) + c == a + (b + c)
  {
  }

  /** A batch whose every operation of a known session is already stored changes nothing. */
  lemma {:induction false} StoredBatchIsNoop(docs: map<string, Doc>, ops: seq<Element>)
    requires AllWellFormed(docs)
    requires forall op :: op in ops && op.sessionId in docs ==> op.id in docs[op.sessionId].elements
    ensures BatchOk(docs, ops) && ApplyBatch(docs, ops) == Merged(docs, [])
    decreases |ops|
  {
    if ops != [] {
      assert !Fresh(docs, ops[0]);
      assert Apply(docs, ops[0]) == docs;
      assert forall op :: op in ops[1..] ==> op in ops;
      StoredBatchIsNoop(docs, ops[1..]);
    }
  }

  /** Applying a batch a second time, right after the first, changes nothing and records nothing. */
  lemma ReapplyIsNoop(docs: map<string, Doc>, ops: seq<Element>)
    requires AllWellFormed(docs) && BatchOk(docs, ops)
    ensures var r := ApplyBatch(docs, ops);
      BatchOk(r.docs, ops) && ApplyBatch(r.docs, ops) == Merged(r.docs, [])
  {
    BatchKeeps(docs, ops);
    StoredBatchIsNoop(ApplyBatch(docs, ops).docs, ops);
  }

  lemma ApplyFresh(docs: map<string, Doc>, op: Element)
    requires AllWellFormed(docs) && Acceptable(docs, op) && Fresh(docs, op)
    ensures Apply(docs, op) == docs[op.sessionId := Insert(docs[op.sessionId], op)]
  {
  }

  lemma ApplySkip(docs: map<string, Doc>, op: Element)
    requires AllWellFormed(docs) && Acceptable(docs, op) && !Fresh(docs, op)
    ensures Apply(docs, op) == docs
  {
  }

  lemma RestrictUpdate(docs: map<string, Doc>, s: string, d': Doc)
    requires s in docs
    ensures map[s := docs[s]][s := d'] == map[s := docs[s := d'][s]]
  {
  }

  /** One operation seen from a single session. */
  lemma ApplyRestricted(docs: map<string, Doc>, op: Element, s: string)
    requires AllWellFormed(docs) && Acceptable(docs, op) && s in docs
    ensures AllWellFormed(map[s := docs[s]]) && Acceptable(map[s := docs[s]], op)
    ensures Apply(map[s := docs[s]], op) == map[s := Apply(docs, op)[s]]
  {
    var one := map[s := docs[s]];
    assert AllWellFormed(one);
    if op.sessionId == s && Fresh(docs, op) {
      assert Acceptable(one, op) && Fresh(one, op);
      ApplyFresh(one, op);
      ApplyFresh(docs, op);
      RestrictUpdate(docs, s, Insert(docs[s], op));
    } else {
      assert Acceptable(one, op) && !Fresh(one, op);
      ApplySkip(one, op);
      if Fresh(docs, op) {
        ApplyFresh(docs, op);
      } else {
        ApplySkip(docs, op);
      }
    }
  }

  /** Sessions are merged independently: what a batch does to session `s` depends only on the
      document of `s`, and not on the other sessions or on their operations. */
  lemma {:induction false} SessionsIndependent(docs: map<string, Doc>, ops: seq<Element>, s: string)
    requires AllWellFormed(docs) && BatchOk(docs, ops) && s in docs
    ensures AllWellFormed(map[s := docs[s]]) && BatchOk(map[s := docs[s]], ops)
    ensures ApplyBatch(map[s := docs[s]], ops).docs == map[s := ApplyBatch(docs, ops).docs[s]]
    decreases |ops|
  {
    var one := map[s := docs[s]];
    if ops != [] {
      ApplyRestricted(docs, ops[0], s);
      var next := Apply(docs, ops[0]);
      SessionsIndependent(next, ops[1..], s);
      assert map[s := next[s]] == Apply(one, ops[0]);
    }
  }

  /** The counter of every document is one more than the number of its elements; the merge keeps
      this, since each insert stores one new element and advances the counter once. */
  ghost predicate Counted(docs: map<string, Doc>)
  {
    forall s :: s in docs ==> docs[s].nextOpNumber == |docs[s].elements| + 1
  }

  lemma CountedUpdate(docs: map<string, Doc>, s: string, d': Doc)
    requires Counted(docs) && s in docs
    requires d'.nextOpNumber == docs[s].nextOpNumber + 1 && |d'.elements| == |docs[s].elements| + 1
    ensures Counted(docs[s := d'])
  {
  }

  lemma {:induction false} BatchKeepsCount(docs: map<string, Doc>, ops: seq<Element>)
    requires AllWellFormed(docs) && BatchOk(docs, ops) && Counted(docs)
    ensures Counted(ApplyBatch(docs, ops).docs)
    decreases |ops|
  {
    if ops != [] {
      var op := ops[0];
      var next := Apply(docs, op);
      if Fresh(docs, op) {
        var d := docs[op.sessionId];
        InsertBookkeeping(d, op);
        assert |Insert(d, op).elements.Keys| == |d.elements.Keys| + 1;
        CountedUpdate(docs, op.sessionId, Insert(d, op));
      }
      BatchKeepsCount(next, ops[1..]);
    }
  }
}

=== FILE: worker.dfy ===
/** A worker: the documents of the sessions it holds, the buffer of operations it has yet to send,
    and the local insert, the insert resolver and the remote merge that update them. */
module Workers {
  import opened Ids
  import opened Document
  import opened InsertProperties
  import opened Crdts
  import opened Merge

  /** The answer to a peer asking for a session's document. */
  datatype SendResult = Sent(doc: Crdt) | NoCrdtError(sessionId: string)

  class Worker {
    var workerId: nat
    var crdt: map<string, Crdt>
    var localOps: seq<Element>

    /** No two sessions share one document object, and every held document is well formed. */
    ghost predicate Valid()
      reads this, crdt.Values
    {
      Unshared() && AllWellFormed(Docs())
    }

    /** No two sessions share one document object. */
    ghost predicate Unshared()
      reads this
    {
      forall s, t :: s in crdt && t in crdt && s != t ==> crdt[s] != crdt[t]
    }

    /** The documents as values, by session. */
    ghost function Docs(): map<string, Doc>
      reads this, crdt.Values
    {
      map s | s in crdt :: crdt[s].Value()
    }

    /** A worker once the load balancer has given it its id: no sessions, nothing to send. */
    constructor (workerId: nat)
      ensures Valid() && this.workerId == workerId && crdt == map[] && localOps == []
    {
      this.workerId := workerId;
      crdt := map[];
      localOps := [];
    }

    /** Opens a session with a fresh, empty document under the given name (the source draws the
        name at random). */
    method NewSession(sessionId: string) returns (c: Crdt)
      requires Valid()
      modifies this`crdt
      ensures fresh(c) && crdt == old(crdt)[sessionId := c]
      ensures Valid() && Docs() == old(Docs())[sessionId := EmptyDoc]
    {
      c := new Crdt();
      AddSession(sessionId, c);
    }

    /** Files a document under a session name. */
    method AddSession(sessionId: string, c: Crdt)
      requires Valid() && c.Valid() && c.Value() == EmptyDoc && c !in crdt.Values
      modifies this`crdt
      ensures crdt == old(crdt)[sessionId := c]
      ensures Valid() && Docs() == old(Docs())[sessionId := EmptyDoc]
    {
      ghost var before := Docs();
      crdt := crdt[sessionId := c];
      KeepOthers(before, sessionId, c);
      UpdateWellFormed(before, sessionId, c.Value());
    }

    /** Whether a local insert may go ahead: the session is held and the reference is the
        sentinel or an element on its chain. */
    function PrevIdExists(prevId: string, sessionId: string): (r: bool)
      reads this, crdt.Values
      ensures Valid() ==>
        (r <==> sessionId in crdt && (prevId == InitialId || prevId in Docs()[sessionId].order))
    {
      if sessionId in crdt then
        prevId in crdt[sessionId].elements || prevId == InitialId
      else
        false
    }

    /** The peer-facing lookup of a session's document. */
    function SendCrdt(sessionId: string): (r: SendResult)
      reads this
      ensures r == NoCrdtError(sessionId) <==> sessionId !in crdt
      ensures sessionId in crdt ==> r == Sent(crdt[sessionId])
    {
      if sessionId !in crdt then NoCrdtError(sessionId) else Sent(crdt[sessionId])
    }

    /** Stores the element, appends the same copy to the outgoing buffer, and advances the
        document's counter. */
    method AddOpAndIncrementCounter(e: Element, opId: string, c: Crdt)
      modifies this`localOps, c`elements, c`nextOpNumber
      ensures c.elements == old(c.elements)[opId := e]
      ensures localOps == old(localOps) + [e]
      ensures c.nextOpNumber == old(c.nextOpNumber) + 1
    {
      c.elements := c.elements[opId := e];
      localOps := localOps + [e];
      c.nextOpNumber := c.nextOpNumber + 1;
    }

    /** The insert resolver: the first entry of an empty document, then an insert at the sentinel,
        then a normal insert after the anchor of the walk; each ends by storing the element. The
        document becomes `Insert` of the old one and the stored copy is appended to the buffer
        (`InsertWellFormed` says when the result is well formed). */
    method AddToCrdt(e: Element, c: Crdt)
      requires c.Valid() && Resolvable(c.Value(), e)
      modifies this`localOps, c
      ensures c.Value() == Insert(old(c.Value()), e)
      ensures localOps == old(localOps) + [Placed(old(c.Value()), e)]
    {
      ghost var d := c.Value();
      InsertCases(d, e);
      var isFirst := c.FirstCrdtEntry(e.id);
      if isFirst {
        AddOpAndIncrementCounter(e, e.id, c);
        c.order := [e.id];
      } else {
        var replaced, placed := c.ReplacingFirstOp(e);
        if replaced {
          AddOpAndIncrementCounter(placed, e.id, c);
          c.order := [e.id] + d.order;
        } else {
          assert c.Value() == d;
          placed := c.NormalInsert(e);
          AddOpAndIncrementCounter(placed, e.id, c);
          c.order := Splice(d.order, Anchor(d, e), e.id);
        }
      }
    }

    /** The insert resolver run on the document of a held session, seen from the whole worker:
        that session's document becomes `Insert` of the old one, the others stay as they are. */
    method AddToSession(e: Element, sessionId: string)
      requires Unshared() && sessionId in crdt && crdt[sessionId].Valid()
      requires Resolvable(crdt[sessionId].Value(), e)
      modifies this`localOps, crdt[sessionId]
      ensures crdt == old(crdt)
      ensures Docs() == old(Docs())[sessionId := Insert(old(Docs())[sessionId], e)]
      ensures localOps == old(localOps) + [Placed(old(Docs())[sessionId], e)]
    {
      var c := crdt[sessionId];
      ghost var before := Docs();
      AddToCrdt(e, c);
      KeepOthers(before, sessionId, c);
    }

    /** The element a local insert creates: this worker's client id, the id minted from the
        document's counter and this worker's id, and no successor yet. */
    function LocalElement(prevId: string, content: string, sessionId: string): (e: Element)
      reads this, crdt.Values
      requires sessionId in crdt && crdt[sessionId].nextOpNumber >= 1
      ensures Canonical(e.id) && e.nextId == "" && !e.deleted
      ensures e.id == MintId(crdt[sessionId].nextOpNumber, workerId)
      ensures e.clientId == Itoa(workerId) && e.prevId == prevId && e.sessionId == sessionId
    {
      Element(sessionId, Itoa(workerId), false,
              MintId(crdt[sessionId].nextOpNumber, workerId), prevId, "", content)
    }

    /** The local insert as the source writes it. A reference that is neither stored nor the
        sentinel, or an unknown session, changes nothing; otherwise the minted element is
        inserted into the session's document and recorded in the buffer. The documents stay well
        formed as long as the minted id is not already stored, which the source does not check. */
    method AddRight(prevId: string, content: string, sessionId: string)
      requires Valid()
      modifies this`localOps, crdt.Values
      ensures crdt == old(crdt)
      ensures !old(PrevIdExists(prevId, sessionId)) ==>
        Docs() == old(Docs()) && localOps == old(localOps) && Valid()
      ensures old(PrevIdExists(prevId, sessionId)) ==>
        var d := old(Docs())[sessionId];
        var e := old(LocalElement(prevId, content, sessionId));
        && Resolvable(d, e)
        && Docs() == old(Docs())[sessionId := Insert(d, e)]
        && localOps == old(localOps) + [Placed(d, e)]
        && (e.id !in d.elements ==> Valid())
    {
      if !PrevIdExists(prevId, sessionId) {
        return;
      }
      ValidSession(sessionId);
      ghost var before := Docs();
      var e := LocalElement(prevId, content, sessionId);
      AcceptedIsResolvable(crdt[sessionId].Value(), e);
      AddToSession(e, sessionId);
      if e.id !in before[sessionId].elements {
        InsertKeepsValid(before, sessionId, e);
      }
    }

    /** The local insert with the check the source lacks: when the minted id is already stored,
        the insert is refused and nothing changes, so the documents always stay well formed. */
    method AddRightUnique(prevId: string, content: string, sessionId: string)
      requires Valid()
      modifies this`localOps, crdt.Values
      ensures crdt == old(crdt) && Valid()
      ensures !old(PrevIdExists(prevId, sessionId)) ==> Docs() == old(Docs()) && localOps == old(localOps)
      ensures old(PrevIdExists(prevId, sessionId)) ==>
        var d := old(Docs())[sessionId];
        var e := old(LocalElement(prevId, content, sessionId));
        if e.id in d.elements then
          Docs() == old(Docs()) && localOps == old(localOps)
        else
          && OpOk(d, e)
          && Docs() == old(Docs())[sessionId := Insert(d, e)]
          && localOps == old(localOps) + [Placed(d, e)]
    {
      if !PrevIdExists(prevId, sessionId) {
        return;
      }
      ValidSession(sessionId);
      var e := LocalElement(prevId, content, sessionId);
      if e.id in crdt[sessionId].elements {
        return;
      }
      ghost var before := Docs();
      AcceptedIsResolvable(crdt[sessionId].Value(), e);
      AddToSession(e, sessionId);
      InsertKeepsValid(before, sessionId, e);
    }

    /** An acceptable insert into one session keeps every document well formed. */
    lemma InsertKeepsValid(before: map<string, Doc>, s: string, e: Element)
      requires Unshared() && AllWellFormed(before) && s in before && OpOk(before[s], e)
      requires Docs() == before[s := Insert(before[s], e)]
      ensures Valid()
    {
      InsertWellFormed(before[s], e);
      UpdateWellFormed(before, s, Insert(before[s], e));
    }

    lemma ValidSession(s: string)
      requires Valid() && s in crdt
      ensures Docs()[s] == crdt[s].Value() && crdt[s].Valid()
    {
    }

    /** After one document object changes, the other sessions' documents are as they were. */
    lemma KeepOthers(before: map<string, Doc>, s: string, c: Crdt)
      requires s in crdt && crdt[s] == c
      requires crdt.Keys == before.Keys + {s}
      requires forall t :: t in crdt && t != s ==> before[t] == crdt[t].Value()
      ensures Docs() == before[s := c.Value()]
    {
    }

    /** Applies a batch from a peer: an operation of an unknown session or with an id already
        stored is skipped, every other one goes through the insert resolver, so it is also
        appended to the outgoing buffer and advances the counter. The documents end as
        `ApplyBatch` says and the buffer grows by what it records. */
    method ApplyIncomingOps(ops: seq<Element>)
      requires Valid() && BatchOk(Docs(), ops)
      modifies this`localOps, crdt.Values
      ensures crdt == old(crdt) && Valid()
      ensures Docs() == ApplyBatch(old(Docs()), ops).docs
      ensures localOps == old(localOps) + ApplyBatch(old(Docs()), ops).recorded
    {
      ghost var target := ApplyBatch(old(Docs()), ops);
      ghost var total := old(localOps) + target.recorded;
      MidwayStart(Docs(), ops, localOps);
      var i := 0;
      while i < |ops|
        invariant 0 <= i <= |ops|
        invariant crdt == old(crdt) && Valid()
        invariant Midway(Docs(), ops[i..], target.docs, localOps, total)
      {
        ghost var before := Docs();
        ghost var buffered := localOps;
        assert ops[i..][0] == ops[i] && ops[i..][1..] == ops[i + 1..];
        MidwayNext(before, ops[i..], target.docs, buffered, total);
        ApplyIncomingOp(ops[i]);
        BatchAdvance(before, ops[i..], target.docs, buffered, total, localOps);
        i := i + 1;
      }
      MidwayEnd(Docs(), target.docs, localOps, total);
    }

    /** One operation of an incoming batch: skipped when its session is unknown or its id is
        already stored, otherwise put through the insert resolver. */
    method ApplyIncomingOp(op: Element)
      requires Valid() && Acceptable(Docs(), op)
      modifies this`localOps, crdt.Values
      ensures crdt == old(crdt) && Valid()
      ensures Docs() == Apply(old(Docs()), op)
      ensures localOps == old(localOps) + Recorded(old(Docs()), op)
    {
      ghost var before := Docs();
      if op.sessionId in crdt {
        var c := crdt[op.sessionId];
        if op.id !in c.elements {
          ApplyFresh(before, op);
          AddToSession(op, op.sessionId);
          InsertKeepsValid(before, op.sessionId, op);
          return;
        }
      }
      ApplySkip(before, op);
    }

    /** The part of the periodic send that touches worker state: the buffer is handed over and
        emptied. */
    method DrainLocalOps() returns (batch: seq<Element>)
      modifies this`localOps
      ensures batch == old(localOps) && localOps == []
    {
      batch := localOps;
      localOps := [];
    }
  }

  /** The inserts a local insert makes are resolvable: the reference is the sentinel or stored,
      and a minted id is positive. */
  lemma AcceptedIsResolvable(d: Doc, e: Element)
    requires WellFormed(d) && Canonical(e.id)
    requires e.prevId == InitialId || e.prevId in d.elements
    ensures Resolvable(d, e)
  {
    CanonicalPositive(e.id);
  }
}
